=== FILE: README.md ===
# SmartDoc AI admin dashboard: collection views and session state

This project is a Dafny model of the admin dashboard of SmartDoc AI, a
Streamlit front end (`app.py`). An administrator signs in, then browses two
collections the backend serves: uploaded documents and registered users.
Streamlit re-runs the whole script on every interaction. Everything that
survives between runs lives in the per-session state. The model therefore
treats each widget action as a pure function from one `State.Session`
record to the next. HTTP replies, the clock and the readiness probe are
inputs to those functions.

Modules, one per file:

- `Text` (text.dfy): ASCII lower-casing, substring containment (Python's
  `in` on strings) and code-point lexicographic order (Python's `<=` on
  strings). The order is proved to be a total order.
- `Seqs` (seqs.dfy): order-preserving filtering, which is what a list
  comprehension with a condition computes.
- `Sorting` (sorting.dfy): Python's `sorted(xs, key=k, reverse=b)`.
  - It is a stable sort. With `reverse=True`, elements with equal keys keep
    their original order; they are not reversed.
  - The model is an insertion sort. Its result is proved to be the only
    ordered permutation that keeps every key class in input order, so it
    coincides with `sorted` however `sorted` is implemented.
  - `sorted(set(...))` of strings is modelled too.
- `Records` (records.dfy): the document and user records, the `user_id`
  value and its `str()` text, and HTTP replies.
- `Pagination` (pagination.dfy): eight items per page, the page count,
  Python's slice of one page, and the Prev / Next buttons.
- `State` (state.dfy): the session record, the sort orders and the
  Authorization-header test.
- `Documents` (documents.dfy): the documents page.
  - The filename search with its one-second debounce, which as written never holds a query.
  - The user-id filter and its selectbox.
  - The sort button.
  - The filter, sort, clamp and paginate pipeline.
  - Deleting a document.
- `Users` (users.dfy): the users page.
  - The cached sorted list.
  - Pagination without a page reset.
  - The two-step delete confirmation.
- `Auth` (auth.dfy): the readiness gate in front of the login form, the
  login request and its 401 messages, the admin check, and logout.

## Model

| member | source | states |
|---|---|---|
| Text.ContainsIffOccurs | app.py:238-240 | The substring test holds exactly when the query occurs at some position of the text (an independent positional definition). |
| Text.EmptyAlwaysContained | app.py:238 | The empty string occurs in every text, which is why an empty search box may skip filtering without changing the result. |
| Text.NotContainedWithoutFirstChar | app.py:136-140 | A non-empty phrase is not found when no position with room for it holds its first character. |
| Text.LessEqReflexive | app.py:245-247 | Python's string order on upload times is reflexive. |
| Text.LessEqAntisymmetric | app.py:245-247 | Two strings each at most the other are equal. |
| Text.LessEqTransitive | app.py:245-247 | The string order is transitive. |
| Text.LessEqTotal | app.py:245-247 | Any two strings are comparable, so sorting by a string key is well defined. |
| Text.LessTrichotomy | app.py:245-247 | Of two strings exactly one holds: they are equal, the first is smaller, or the second is smaller. |
| Seqs.Filter | app.py:239-243 | A comprehension keeps exactly the elements satisfying its condition, each as often as in the input and in input order. If every element satisfies it, the list is unchanged. |
| Seqs.FilterCommute | app.py:238-243 | Applying the name filter and the user filter in either order gives the same list. |
| Sorting.SortBy | app.py:245-247 | The result is a permutation of the input ordered by key (ascending, or descending for reverse). Elements with equal keys keep their input order. |
| Sorting.SortedUnique | app.py:245-247 | Any ordered list with the same key classes in the same order equals the model's sort, so the model is Python's stable sort. |
| Sorting.DescIsReverseOfAsc | app.py:245-247 | When no two keys are equal, the descending sort is the reverse of the ascending one. |
| Sorting.SortedDistinct | app.py:205 | `sorted(set(xs))` is strictly increasing and holds exactly the values of the input. |
| Sorting.StrictlyIncreasingUnique | app.py:205 | Two strictly increasing lists with the same members are equal, so the id list is determined by the set of ids. |
| Records.NatText | app.py:205 | `str(n)` of a natural number is all decimal digits, has no leading zero unless it is "0", and reads back as `n`. |
| Records.IdText | app.py:205 | `str(user_id)`: a text id as is, a number as its digits, with a leading "-" when negative. |
| Records.IdTextInjective | app.py:241-243 | Different numeric ids have different texts, so the user filter matches exactly one numeric id. |
| State.Initial | app.py:23-43 | A fresh session is signed out (no token, user id or name, not admin), has no search or filter, shows page 1 latest first on both lists, and has nothing cached or armed. |
| State.AuthHeader | app.py:47-50 | No header iff the token is missing or empty. Otherwise the header is "Bearer " followed by the token. |
| State.AuthHeaderCarriesToken | app.py:47-50 | Two sessions send the same header exactly when they hold the same token. |
| Pagination.TotalPages | app.py:254 | The page count covers all items, is at least 1, and leaves no page empty when there are items. |
| Pagination.TotalPagesLeast | app.py:254 | No smaller page count covers all items. |
| Pagination.PageItems | app.py:271-274 | A page holds at most eight items, the window starting at `(page-1)*8`. It is full before the last page, nonempty up to the last page, and empty past it. The last page holds exactly the items the earlier pages leave over. |
| Pagination.AllPagesReassemble | app.py:253-274 | Pages 1 to the page count, laid end to end, give back exactly the whole list. |
| Pagination.ItemOnItsPage | app.py:271-274 | Item `i` appears on page `i/8+1`, at row `i%8`. |
| Pagination.ClampPage | app.py:256-257 | A page past the end is reset to 1. Any other page is kept. |
| Pagination.PrevPage | app.py:261-262 | Prev goes back one page and does nothing on page 1. |
| Pagination.NextPage | app.py:267-268 | Next goes forward one page, does nothing from the last page on, and never passes the last page. |
| Pagination.PrevUndoesNext | app.py:261-269 | Next and then Prev returns to the start page when Next was enabled. |
| Pagination.NextUndoesPrev | app.py:261-269 | Prev and then Next returns to the start page when Prev was enabled. |
| State.Toggle | app.py:233 | The sort button always changes the order. |
| State.ToggleInvolution | app.py:233 | Pressing the sort button twice restores the order. |
| Documents.FetchDocuments | app.py:184-202 | While a list is cached it is served unchanged. Otherwise the fresh fetch is returned and cached. |
| Documents.FetchDocumentsRepeats | app.py:184-202 | Until the cache is cleared, a later fetch returns the first list, whatever the backend now holds. |
| Documents.DeleteRefetches | app.py:292-293 | After a successful delete the next fetch reaches the backend again. |
| Documents.FilterByName | app.py:238-240 | The search keeps, in order and with multiplicity, exactly the documents whose lower-cased filename contains the lower-cased query. An empty query keeps all. |
| Documents.FilterByUser | app.py:241-243 | A nonempty user filter keeps exactly the documents whose `str(user_id)` equals it. The empty filter keeps all. |
| Documents.Matching | app.py:237-247 | The filtered list holds every document passing both filters, each as often as in the fetch. It is ordered by upload time in the session's direction, and documents with equal upload times keep their fetch order. |
| Documents.Render | app.py:236-274 | No documents, no matches (iff no document passes), or a page. The page count is that of the matches, the page is the clamped session page (kept when in range, else 1), and it holds 1 to 8 matching documents cut from the sorted list, and is the only session field that changes. |
| Documents.EveryMatchIsOnSomePage | app.py:249-274 | Every matching document is reachable: it sits on page `i/8+1`, which is within the page count, and all pages together are exactly the matches. |
| Documents.IdTexts | app.py:205 | One `str(user_id)` per document, in order. |
| Documents.UniqueUserIds | app.py:204-205 | The filter's id list is strictly increasing and holds exactly the ids of the fetched documents. |
| Documents.EnsureUniqueIds | app.py:204-206 | The id list is built only when the session has none and is otherwise reused unchanged. |
| Documents.IndexOf | app.py:228 | `list.index` gives the first position of the value, and fails iff the value is absent. |
| Documents.SelectedIndexAsWritten | app.py:224-229 | The selectbox index as written is 0 for the empty filter, and fails iff a nonempty stored filter is not among the options. Otherwise it is the filter's first position: the option there is the filter and no earlier option is. |
| Documents.StaleFilterRaises | app.py:224-229 | After a successful delete of the last document of the filtered user, the rebuilt options lack the filter and the index computation fails. |
| Documents.SelectedIndex | app.py:224-229 | The corrected index is always a valid option. It points at the stored filter when offered, and otherwise at "All Users". |
| Documents.StaleFilterFallsBack | app.py:224-230 | With the corrected index the same delete leaves the selectbox on "All Users", and the next selection clears the stale filter. |
| Documents.SelectedIndexAgrees | app.py:224-229 | The corrected index equals the written one wherever the written one does not fail. |
| Documents.SelectUser | app.py:230 | Choosing "All Users" stores the empty filter. Any other choice is stored as is, and nothing else changes. |
| Documents.Debounce | app.py:213-222 | The debounce as written. An unchanged query leaves the session alone. A changed query more than a second after the stored time is committed with page 1, and nothing else changes; in particular the time is not recorded. A changed query within a second of the stored time only records the time. |
| Documents.TypingNeverHolds | app.py:210-222 | As written, the stored time starts at 0 and only the hold branch writes it. So for any sequence of renders at wall-clock times after the first second of 1970, the time stays 0 and every changed query is committed at the render that shows it: fast typing is never held. |
| Documents.DebounceIntended | app.py:213-222 | The intended debounce: the same commit and hold decisions, but every changed query records its time, and an unchanged query leaves the session alone. |
| Documents.HeldQueryCommitsLater | app.py:213-222 | With the intended debounce, a held query is committed, with page 1, by a render more than a second later that still shows it. |
| Documents.FastTypingHolds | app.py:215-222 | With the intended debounce, a second change within a second of a first change is held, and its time is recorded. |
| Documents.BurstKeepsQuery | app.py:215-222 | With the intended debounce, renders within a second after a recorded change leave the committed query and the page unchanged. |
| Documents.IntendedBurstHolds | app.py:215-222 | With the intended debounce, a burst of edits all within a second of the first leaves the query and page the first edit left: only that first edit can be committed. |
| Documents.ToggleDocSort | app.py:232-234 | The documents sort button flips the order and changes nothing else. |
| Documents.ToggleDocSortTwice | app.py:232-234 | Two presses restore the session. |
| Documents.DocPrev | app.py:261-263 | Prev on the documents list moves one page back, except on page 1. |
| Documents.DocNext | app.py:267-269 | Next on the documents list moves one page forward while below the page count. |
| Documents.DeleteDocument | app.py:286-302 | A 200 reply drops the cached documents and id list and returns to page 1. Any other outcome leaves the session unchanged. |
| Documents.DeleteRefreshesIdList | app.py:292-298 | After a successful delete the next render rebuilds the id list from the new fetch. After a failed one the cached list stays. |
| Users.SortUsers | app.py:320-322 | Users are a stable permutation ordered by creation time in the session's direction. |
| Users.FetchUsers | app.py:316 | While a user list is cached it is served unchanged. Otherwise the fresh fetch is returned and cached. |
| Users.RefreshSortedUsers | app.py:319-324 | The list is re-sorted iff there is none or the order changed since the last sort. Otherwise the cached list is reused. |
| Users.ToggleResorts | app.py:312-324 | After the sort button the list shown is the current fetch sorted in the new order. |
| Users.Render | app.py:318-344 | No users iff the fetch is empty, and then the session is unchanged. Otherwise the session is the one the sorted-list cache leaves, and its page is shown without a reset: at most eight users of the cached sorted list, nonempty up to the page count and empty past it. |
| Users.StalePageRendersEmpty | app.py:326-344 | With nine users and a stored page 3, the view is "Page 3/2" with no rows. |
| Users.ToggleUserSort | app.py:312-314 | The users sort button flips the order and changes nothing else. |
| Users.ToggleUserSortTwice | app.py:312-314 | Two presses restore the session. |
| Users.UserPrev | app.py:331-333 | Prev on the users list moves one page back, except on page 1. |
| Users.UserNext | app.py:337-339 | Next on the users list moves one page forward while below the page count. |
| Users.PressDelete | app.py:394-405 | "Delete User" arms the confirmation only for a non-admin user and touches no other user's flag. |
| Users.CancelDelete | app.py:429-431 | "Cancel" disarms that user only. |
| Users.ConfirmDelete | app.py:407-428 | The request goes out iff the user is deletable and armed. A 200 reply disarms, returns to page 1 and drops all cached lists. Anything else changes nothing. |
| Users.PressThenConfirm | app.py:404-424 | Press then a successful confirm sends one request and leaves the user disarmed on page 1. |
| Users.CancelBlocksRequest | app.py:404-431 | After press and cancel, confirm sends nothing. |
| Users.FailedConfirmStaysArmed | app.py:404-428 | A failed confirm keeps the user armed and the page unchanged. |
| Users.ConfirmRefetches | app.py:416-420 | After a successful delete both the users and the documents are fetched from the backend again. |
| Auth.VerifyAdmin | app.py:53-83 | No token means no request. The session is admin iff the reply is 200, and only a 401 drops the token. A 403 gives "Access denied" with the detail or "Not an admin". Another status gives that status with the detail or "Unknown error". An undecodable body is an unexpected error, and a refused connection a network error. Nothing else in the session changes. |
| Auth.Classify401 | app.py:134-143 | Each 401 message is chosen iff its phrase occurs in the lower-cased detail and no earlier phrase does. Otherwise the raw detail, or "Unknown error", is shown. |
| Auth.BadCredentialsScenario | app.py:134-141 | Any capitalisation of "incorrect email or password" gets the credentials message. |
| Auth.MissingKeyWinsOverCredentials | app.py:134-141 | A detail naming both a missing key and bad credentials gets the missing-key message. |
| Auth.Login | app.py:110-149 | Credentials are sent iff both fields are filled, with the e-mail lower-cased. A 200 reply stores the user id and name and changes nothing but these, the token and the admin flag. With a non-empty token and a 200 admin check the admin is logged in; the session is admin only then. Any other admin verdict is reported and clears the token. A 401 detail is classified, and another status shows the detail or "Unknown error". A refused connection, another exception or an undecodable body each get their message, and failures leave the session unchanged. |
| Auth.NoTokenNoAdmin | app.py:120-133 | A 200 login reply without a token ends as "not an administrator" without an admin request. |
| Auth.LoginGate | app.py:89-104 | The backend is probed iff it has not been seen reachable. The form is shown iff it was reachable or the probe succeeded. |
| Auth.Logout | app.py:161-172 | Logout forgets the identity and token, forces a new probe and drops the cached lists. It keeps pages, filters, sort orders and delete flags. |
| Auth.LogoutIdempotent | app.py:161-172 | Logging out twice is the same as once. |
| Auth.LogoutLeadsToProbe | app.py:161-166 | After logout the session is not admin and the next login screen probes the backend. |

## Left out

- Streamlit rendering is not modelled. That covers headers, columns, expanders, the dataframe, messages, `st.rerun`, `st.experimental_rerun` and `st.stop`. Only the state each widget action leaves behind is modelled.
- HTTP requests, JSON decoding and the backend URL are not modelled. Every reply is an input (`Records.Reply`). An undecodable body is `Malformed`.
- `wait_for_backend` (app_utils.py:1-22) is meant to poll the backend with sleeps and a timeout. As written, app_utils.py imports neither `time` nor `requests`, so `time.time()` at app_utils.py:6 raises NameError. app.py:92-101 does not catch it, so a fresh session never reaches the login form at app.py:104. `Auth.LoginGate` models the intended probe, with its answer as the `probeOk` input.
- The five-minute expiry of `st.cache_data` is not modelled: a cached list is served until something clears it. The cache is also shared by all sessions of the server process, while the model keeps it in the one session. The backend's answer to a fetch is an input.
- Float seconds from `time.time()` are modelled as integer milliseconds. The test `> 1.0` becomes `> 1000`. The clock is an input. It is wall-clock time since 1970, which is why `Documents.TypingNeverHolds` asks only that it be past 1000 ms.
- Text.Lower: lower-cases ASCII letters only. Python's `.lower()` folds all of Unicode and may change a string's length ('İ'). The login messages agree when the 401 detail is ASCII. A detail with a character that Python lowers to an ASCII letter can be classified differently: with the Kelvin sign (U+212A) in place of the "k" of "key", Python shows the missing-key message and the model the generic one. A search over non-ASCII filenames can differ too: "été" finds "ÉTÉ.pdf" in Python and not in the model.
- `fetch_users` is called but never defined in app.py. The users page is modelled as if it were defined like `fetch_documents` (Users.FetchUsers), with the fetched list as an input.
- Creation-time formatting with `datetime`, the role/status/key display columns, and the "View user details" selectbox are display only.
- `token_type` is stored at login but never read.
- Users.ConfirmDelete: models the evident intent of a 200 reply. As written, `fetch_documents` is defined only on the documents page (app.py:185), so `fetch_documents.clear()` at app.py:417 would raise NameError. The handler at app.py:427 turns that into an error message before the cached lists are dropped and the page is reset. That path cannot be reached, because the page already fails at app.py:316.
- Logout clears `st.cache_resource`, which the dashboard does not use.

## Findings

| source | as written | input that shows it | evidently intended | confidence | as-written member | corrected member |
|---|---|---|---|---|---|---|
| app.py:224-229 | The selectbox index is `user_options.index(user_filter)` for any nonempty stored filter. | Filter by user "7", delete that user's last document (reply 200). The id list is rebuilt without "7", `index` raises ValueError, and since the filter is never reset every later visit to the documents page raises too. | Fall back to "All Users" when the stored filter is no longer offered. | high; not executed | Documents.StaleFilterRaises | Documents.SelectedIndex (used in Documents.StaleFilterFallsBack) |
| app.py:210-222 | `last_typing_time` starts at 0 and only the hold branch writes it. A commit does not record the time. | Type "a" and then "ab" 200 ms later, at any date after 1970. Since `time.time() - 0 > 1.0`, both are committed at once. The hold branch never runs and the stored time stays 0, so there is no debounce. | Record the time of every changed query, so that a change within a second of the previous one is held. | high; not executed | Documents.TypingNeverHolds | Documents.DebounceIntended (used in Documents.HeldQueryCommitsLater, Documents.FastTypingHolds, Documents.IntendedBurstHolds) |

=== FILE: auth.dfy ===
/**
 Signing in and out: the backend readiness gate in front of the login form,
 the login request with its 401 message classification, the admin check
 that follows a successful login, and logout.
 */
module Auth {
  import opened Records
  import opened Text
  import opened State

  // ---------------------------------------------------------------------------
  // Admin verification (`verify_admin_access`)

  datatype AdminVerdict =
    | Admin                             // 200
    | NoToken                           // no Authorization header: no request
    | Denied(message: string)           // 403, "Access denied: ..."
    | Reauth                            // 401, token dropped
    | CheckFailed(status: int, message: string)
    | NetworkDown                       // connection refused
    | Unexpected                        // any other exception, e.g. a body that is not JSON

  datatype AdminCheckResult = AdminCheckResult(session: Session, verdict: AdminVerdict, requested: bool)

  /**
   Map the reply of `GET /admin/users` to a verdict. The session is marked
   admin only on a 200 reply; only a 401 reply drops the token.
   */
  function VerifyAdmin(s: Session, reply: Reply): (r: AdminCheckResult)
    ensures r.requested <==> HasAuthHeader(s)
    ensures !r.requested ==> r.verdict == NoToken
    ensures r.session.isAdmin <==> r.verdict == Admin
    ensures r.verdict == Admin <==> r.requested && IsOk(reply)
    ensures r.verdict == Reauth <==> r.requested && reply.Response? && reply.status == 401
    ensures r.session.accessToken == if r.verdict == Reauth then None else s.accessToken
    ensures r.session == s.(isAdmin := r.session.isAdmin, accessToken := r.session.accessToken)
    ensures r.verdict.Denied? ==> reply.Response? && reply.status == 403 && reply.body.Json?
    ensures r.verdict.CheckFailed? ==>
      reply.Response? && reply.status !in {200, 401, 403} && reply.body.Json? && r.verdict.status == reply.status
    // the verdict for each outcome of the request
    ensures r.requested && reply.ConnectionError? ==> r.verdict == NetworkDown
    ensures r.requested && reply.OtherError? ==> r.verdict == Unexpected
    ensures r.requested && reply.Response? && reply.status == 403 ==>
      r.verdict == if reply.body.Malformed? then Unexpected else Denied(reply.body.detail.GetOr("Not an admin"))
    ensures r.requested && reply.Response? && reply.status !in {200, 401, 403} ==>
      r.verdict == if reply.body.Malformed? then Unexpected
                   else CheckFailed(reply.status, reply.body.detail.GetOr("Unknown error"))
  {
    if !HasAuthHeader(s) then
      AdminCheckResult(s.(isAdmin := false), NoToken, false)
    else
      match reply
      case ConnectionError => AdminCheckResult(s.(isAdmin := false), NetworkDown, true)
      case OtherError => AdminCheckResult(s.(isAdmin := false), Unexpected, true)
      case Response(status, body) =>
        if status == 200 then
          AdminCheckResult(s.(isAdmin := true), Admin, true)
        else if status == 403 then
          match body
          case Malformed => AdminCheckResult(s.(isAdmin := false), Unexpected, true)
          case Json(detail, _, _, _) =>
            AdminCheckResult(s.(isAdmin := false), Denied(detail.GetOr("Not an admin")), true)
        else if status == 401 then
          AdminCheckResult(s.(accessToken := None, isAdmin := false), Reauth, true)
        else
          match body
          case Malformed => AdminCheckResult(s.(isAdmin := false), Unexpected, true)
          case Json(detail, _, _, _) =>
            AdminCheckResult(s.(isAdmin := false), CheckFailed(status, detail.GetOr("Unknown error")), true)
  }

  // ---------------------------------------------------------------------------
  // Login

  const KeyMissingPhrase: string := "gemini api key is missing"
  const KeyInvalidPhrase: string := "your gemini api key is invalid"
  const BadCredentialsPhrase: string := "incorrect email or password"

  datatype LoginMessage =
    | MissingFields                     // "Please enter both email and password."
    | BackendNotReady                   // readiness probe failed; the form is not shown
    | CannotConnect                     // connection refused
    | LoginUnexpected                   // any other exception
    | LoggedIn                          // admin login successful
    | NotAdmin(verdict: AdminVerdict)   // logged in, but not an administrator
    | ApiKeyMissing
    | ApiKeyInvalid
    | BadCredentials
    | LoginFailed(detail: string)       // "Login failed: <detail>"

  /**
   The message for a 401 reply: the lower-cased detail is tested against
   three phrases in a fixed order; the first that occurs decides. Otherwise
   the detail is shown as sent, or "Unknown error" when there is none.
   */
  function Classify401(detail: Option<string>): (m: LoginMessage)
    ensures var d := Lower(detail.GetOr(""));
      && (m == ApiKeyMissing <==> Contains(d, KeyMissingPhrase))
      && (m == ApiKeyInvalid <==> !Contains(d, KeyMissingPhrase) && Contains(d, KeyInvalidPhrase))
      && (m == BadCredentials <==>
            !Contains(d, KeyMissingPhrase) && !Contains(d, KeyInvalidPhrase) && Contains(d, BadCredentialsPhrase))
      && (m.LoginFailed? <==>
            !Contains(d, KeyMissingPhrase) && !Contains(d, KeyInvalidPhrase) && !Contains(d, BadCredentialsPhrase))
    ensures m.LoginFailed? ==> m.detail == detail.GetOr("Unknown error")
  {
    var d := Lower(detail.GetOr(""));
    if Contains(d, KeyMissingPhrase) then ApiKeyMissing
    else if Contains(d, KeyInvalidPhrase) then ApiKeyInvalid
    else if Contains(d, BadCredentialsPhrase) then BadCredentials
    else LoginFailed(detail.GetOr("Unknown error"))
  }

  /**
   Any capitalisation of "incorrect email or password" (a detail such as
   "Incorrect email or password") gets the credentials message and not the
   generic one.
   */
  lemma BadCredentialsScenario(detail: string)
    requires Lower(detail) == BadCredentialsPhrase
    ensures Classify401(Some(detail)) == BadCredentials
  {
    var d := BadCredentialsPhrase;
    assert IsPrefix(BadCredentialsPhrase, d);
    PhraseAbsent(d, KeyMissingPhrase);
    ContainsIffOccurs(d, KeyInvalidPhrase);
  }

  /** The 25-letter missing-key phrase cannot start at any of the three places left in a 27-letter text. */
  lemma PhraseAbsent(d: string, k: string)
    requires |d| == 27 && |k| == 25 && d[0] != k[0] && d[1] != k[0] && d[2] != k[0]
    ensures !Contains(d, k)
  {
    NotContainedWithoutFirstChar(d, k);
  }

  /** A detail naming two problems gets the message of the one tested first. */
  lemma MissingKeyWinsOverCredentials(detail: string)
    requires Contains(Lower(detail), KeyMissingPhrase)
    requires Contains(Lower(detail), BadCredentialsPhrase)
    ensures Classify401(Some(detail)) == ApiKeyMissing
  {
  }

  /** What the login form sends: the e-mail lower-cased, the password as typed. */
  datatype Credentials = Credentials(username: string, password: string)

  datatype LoginResult = LoginResult(session: Session, message: LoginMessage, sent: Option<Credentials>)

  /**
   Submitting the login form. `loginReply` is the reply of
   `POST /auth/token`; `adminReply` is the reply of the admin check that
   follows a 200 reply and is read only then.
   */
  function Login(s: Session, email: string, password: string, loginReply: Reply, adminReply: Reply): (r: LoginResult)
    requires !s.isAdmin
    ensures r.sent.Some? <==> email != "" && password != ""
    ensures r.sent.Some? ==> r.sent.value == Credentials(Lower(email), password)
    ensures r.sent.None? ==> r.message == MissingFields && r.session == s
    ensures r.message == LoggedIn <==> r.session.isAdmin
    ensures r.message == LoggedIn ==>
      && IsOk(loginReply) && loginReply.body.Json?
      && r.session.accessToken == loginReply.body.accessToken
      && HasAuthHeader(r.session)
      && IsOk(adminReply)
    ensures r.message.NotAdmin? ==> r.session.accessToken.None? && !r.session.isAdmin
    ensures !IsOk(loginReply) || loginReply.body.Malformed? ==> r.session == s
    ensures loginReply.Response? && loginReply.status == 401 && loginReply.body.Json? && r.sent.Some? ==>
      r.message == Classify401(loginReply.body.detail)
    // a 200 reply: the token and identity are stored, then the admin check decides
    ensures r.sent.Some? && IsOk(loginReply) && loginReply.body.Json? ==>
      && r.session.userId == loginReply.body.userId
      && r.session.username == loginReply.body.username
      && (r.message == LoggedIn || r.message.NotAdmin?)
    ensures r.sent.Some? && IsOk(loginReply) && loginReply.body.Json? ==>
      r.session == s.(accessToken := r.session.accessToken, isAdmin := r.session.isAdmin,
                      userId := loginReply.body.userId, username := loginReply.body.username)
    ensures && r.sent.Some? && IsOk(loginReply) && loginReply.body.Json?
            && loginReply.body.accessToken.Some? && loginReply.body.accessToken.value != ""
            && IsOk(adminReply) ==>
      r.message == LoggedIn
    ensures r.message.NotAdmin? ==> r.sent.Some? && IsOk(loginReply) && loginReply.body.Json?
    ensures r.message.NotAdmin? && IsOk(loginReply) && loginReply.body.Json? ==>
      var b := loginReply.body;
      r.message.verdict == VerifyAdmin(s.(accessToken := b.accessToken, userId := b.userId, username := b.username), adminReply).verdict
    // the other outcomes
    ensures r.sent.Some? && loginReply.ConnectionError? ==> r.message == CannotConnect
    ensures r.sent.Some? && (loginReply.OtherError? || (loginReply.Response? && loginReply.body.Malformed?)) ==>
      r.message == LoginUnexpected
    ensures r.sent.Some? && loginReply.Response? && loginReply.status !in {200, 401} && loginReply.body.Json? ==>
      r.message == LoginFailed(loginReply.body.detail.GetOr("Unknown error"))
  {
    if email == "" || password == "" then
      LoginResult(s, MissingFields, None)
    else
      var sent := Some(Credentials(Lower(email), password));
      match loginReply
      case ConnectionError => LoginResult(s, CannotConnect, sent)
      case OtherError => LoginResult(s, LoginUnexpected, sent)
      case Response(status, body) =>
        if body.Malformed? then
          LoginResult(s, LoginUnexpected, sent)
        else if status == 200 then
          var s1 := s.(accessToken := body.accessToken, userId := body.userId, username := body.username);
          var check := VerifyAdmin(s1, adminReply);
          if check.verdict == Admin then
            LoginResult(check.session, LoggedIn, sent)
          else
            LoginResult(check.session.(accessToken := None, isAdmin := false), NotAdmin(check.verdict), sent)
        else if status == 401 then
          LoginResult(s, Classify401(body.detail), sent)
        else
          LoginResult(s, LoginFailed(body.detail.GetOr("Unknown error")), sent)
  }

  /** A login reply without a token never makes the session admin, whatever the admin check would say. */
  lemma NoTokenNoAdmin(s: Session, email: string, password: string, body: Body, adminReply: Reply)
    requires !s.isAdmin
    requires email != "" && password != ""
    requires body.Json? && body.accessToken.None?
    ensures Login(s, email, password, Response(200, body), adminReply).message == NotAdmin(NoToken)
  {
  }

  // ---------------------------------------------------------------------------
  // Readiness gate and logout

  datatype GateResult = GateResult(session: Session, showForm: bool, probed: bool)

  /**
   Before the login form the backend is probed, but only while it has not
   been seen reachable in this session. `probeOk` is the probe's answer.
   */
  function LoginGate(s: Session, probeOk: bool): (r: GateResult)
    ensures r.probed <==> !s.backendReachable
    ensures r.showForm <==> r.session.backendReachable
    ensures r.showForm <==> s.backendReachable || probeOk
    ensures r.session == s.(backendReachable := r.session.backendReachable)
  {
    if s.backendReachable then GateResult(s, true, false)
    else if probeOk then GateResult(s.(backendReachable := true), true, true)
    else GateResult(s, false, true)
  }

  /**
   Logout forgets who is signed in, marks the backend for a new probe and
   drops the cached lists. Pages, filters, sort orders and delete flags stay.
   */
  function Logout(s: Session): (r: Session)
    ensures !r.isAdmin && r.accessToken.None? && r.userId.None? && r.username.None?
    ensures !r.backendReachable
    ensures r.uniqueUserIds.None? && r.sortedUsers.None? && r.documentsCache.None? && r.usersCache.None?
    ensures r.searchQuery == s.searchQuery && r.userFilter == s.userFilter
    ensures r.docPage == s.docPage && r.userPage == s.userPage
    ensures r.sortDocs == s.sortDocs && r.sortUsers == s.sortUsers
    ensures r.deleteArmed == s.deleteArmed && r.prevSortUsers == s.prevSortUsers
    ensures r.lastTypingMs == s.lastTypingMs
  {
    s.(accessToken := None, isAdmin := false, userId := None, username := None,
       backendReachable := false, uniqueUserIds := None, sortedUsers := None,
       documentsCache := None, usersCache := None)
  }

  lemma LogoutIdempotent(s: Session)
    ensures Logout(Logout(s)) == Logout(s)
  {
  }

  /** After logout the next screen is the login screen and the backend is probed again. */
  lemma LogoutLeadsToProbe(s: Session, probeOk: bool)
    ensures LoginGate(Logout(s), probeOk).probed
    ensures !Logout(s).isAdmin
  {
  }
}

=== FILE: documents.dfy ===
/**
 The Documents page: the user-id list, the search box with its debounce, the
 user filter, the sort button, and the filter / sort / paginate pipeline
 that decides which eight documents are shown.
 */
module Documents {
  import opened Records
  import opened Text
  import opened Seqs
  import opened Sorting
  import opened Pagination
  import opened State

  // ---------------------------------------------------------------------------
  // Fetching

  /**
   `fetch_documents()` behind `st.cache_data`: while a list is cached it is
   served as is; otherwise `fetched` (the backend's list, or [] after an
   error) is returned and cached.
   */
  function FetchDocuments(s: Session, fetched: seq<Document>): (r: (seq<Document>, Session))
    ensures r.1 == s.(documentsCache := Some(r.0))
    ensures s.documentsCache.Some? ==> r.0 == s.documentsCache.value
    ensures s.documentsCache.None? ==> r.0 == fetched
  {
    match s.documentsCache
    case Some(docs) => (docs, s)
    case None => (fetched, s.(documentsCache := Some(fetched)))
  }

  /** Until the cache is cleared, later fetches see the first list, whatever the backend now holds. */
  lemma FetchDocumentsRepeats(s: Session, first: seq<Document>, later: seq<Document>)
    ensures var (docs, s1) := FetchDocuments(s, first);
            FetchDocuments(s1, later) == (docs, s1)
  {
  }

  /** After a successful delete the next fetch reaches the backend again. */
  lemma DeleteRefetches(s: Session, reply: Reply, fetched: seq<Document>)
    requires IsOk(reply)
    ensures FetchDocuments(DeleteDocument(s, reply), fetched).0 == fetched
  {
  }

  // ---------------------------------------------------------------------------
  // Filters

  /** `query.lower() in doc['filename'].lower()` */
  predicate NameMatches(query: string, d: Document) {
    Contains(Lower(d.filename), Lower(query))
  }

  /** `query == str(doc['user_id'])` */
  predicate UserMatches(filter: string, d: Document) {
    IdText(d.userId) == filter
  }

  /** The search-box filter; an empty query is not applied. */
  function FilterByName(docs: seq<Document>, query: string): (r: seq<Document>)
    ensures IsSubseq(r, docs)
    ensures forall i :: 0 <= i < |r| ==> NameMatches(query, r[i])
    ensures forall d :: multiset(r)[d] == if NameMatches(query, d) then multiset(docs)[d] else 0
    ensures query == "" ==> r == docs
  {
    if query == "" then
      assert forall d :: NameMatches("", d) by {
        forall d ensures NameMatches("", d) {
          EmptyAlwaysContained(Lower(d.filename));
        }
      }
      IsSubseqReflexive(docs);
      docs
    else
      Filter(docs, d => NameMatches(query, d))
  }

  /** The "Filter by User ID" filter; the empty filter ("All Users") is not applied. */
  function FilterByUser(docs: seq<Document>, filter: string): (r: seq<Document>)
    ensures IsSubseq(r, docs)
    ensures filter != "" ==> forall i :: 0 <= i < |r| ==> UserMatches(filter, r[i])
    ensures filter != "" ==> forall d :: multiset(r)[d] == if UserMatches(filter, d) then multiset(docs)[d] else 0
    ensures filter == "" ==> r == docs
  {
    if filter == "" then
      IsSubseqReflexive(docs);
      docs
    else
      Filter(docs, d => UserMatches(filter, d))
  }

  /** A document survives both filters of the session. */
  predicate Passes(s: Session, d: Document) {
    (s.searchQuery == "" || NameMatches(s.searchQuery, d)) &&
    (s.userFilter == "" || UserMatches(s.userFilter, d))
  }

  /** Filter by name, then by user, then sort by upload time. */
  function Matching(all: seq<Document>, s: Session): (r: seq<Document>)
    ensures forall d :: multiset(r)[d] == if Passes(s, d) then multiset(all)[d] else 0
    ensures Ordered(r, UploadTime, s.sortDocs == Desc)
    ensures Stable(r, FilterByUser(FilterByName(all, s.searchQuery), s.userFilter), UploadTime)
  {
    var byName := FilterByName(all, s.searchQuery);
    var byUser := FilterByUser(byName, s.userFilter);
    SortBy(byUser, UploadTime, s.sortDocs == Desc)
  }

  // ---------------------------------------------------------------------------
  // Rendering the list

  datatype DocsView =
    | NoDocuments                       // "No documents found."
    | NoMatches                         // "No documents found matching your search criteria."
    | DocsPage(page: Page, totalPages: Page, visible: seq<Document>)

  /**
   One render of the list: filter, sort, reset a page past the end to 1,
   and cut out that page. Only `docPage` of the session can change.
   */
  function Render(all: seq<Document>, s: Session): (r: (DocsView, Session))
    ensures r.1 == s.(docPage := r.1.docPage)
    ensures r.0.NoDocuments? <==> |all| == 0
    ensures r.0.NoMatches? <==> |all| > 0 && forall i :: 0 <= i < |all| ==> !Passes(s, all[i])
    ensures !r.0.DocsPage? ==> r.1 == s
    ensures r.0.DocsPage? ==>
      && r.0.totalPages == TotalPages(|Matching(all, s)|)
      && r.0.page == ClampPage(s.docPage, r.0.totalPages)
      && r.1.docPage == r.0.page <= r.0.totalPages
      && (r.0.page == s.docPage || (s.docPage > r.0.totalPages && r.0.page == 1))
      && 0 < |r.0.visible| <= PageSize
      && r.0.visible == PageItems(Matching(all, s), r.0.page)
      && forall i :: 0 <= i < |r.0.visible| ==> r.0.visible[i] in all && Passes(s, r.0.visible[i])
  {
    if |all| == 0 then
      (NoDocuments, s)
    else
      var m := Matching(all, s);
      if |m| == 0 then
        NoMatchesMeansNonePass(all, s, m);
        (NoMatches, s)
      else
        var total := TotalPages(|m|);
        var page := ClampPage(s.docPage, total);
        var visible := PageItems(m, page);
        VisibleFromMatching(all, s, page);
        SomePasses(all, s, m);
        (DocsPage(page, total, visible), s.(docPage := page))
  }

  lemma NoMatchesMeansNonePass(all: seq<Document>, s: Session, m: seq<Document>)
    requires m == Matching(all, s) && |m| == 0
    ensures forall i :: 0 <= i < |all| ==> !Passes(s, all[i])
  {
    forall i | 0 <= i < |all|
      ensures !Passes(s, all[i])
    {
      assert multiset(all)[all[i]] > 0;
      assert multiset(m)[all[i]] == 0;
    }
  }

  lemma SomePasses(all: seq<Document>, s: Session, m: seq<Document>)
    requires m == Matching(all, s) && |m| > 0
    ensures !forall i :: 0 <= i < |all| ==> !Passes(s, all[i])
  {
    assert multiset(m)[m[0]] > 0;
    assert Passes(s, m[0]) && m[0] in multiset(all);
    var i :| 0 <= i < |all| && all[i] == m[0];
  }

  lemma VisibleFromMatching(all: seq<Document>, s: Session, page: Page)
    ensures var visible := PageItems(Matching(all, s), page);
            forall i :: 0 <= i < |visible| ==> visible[i] in all && Passes(s, visible[i])
  {
    var m := Matching(all, s);
    var visible := PageItems(m, page);
    forall i | 0 <= i < |visible|
      ensures visible[i] in all && Passes(s, visible[i])
    {
      var d := visible[i];
      assert d == m[(page - 1) * PageSize + i];
      assert multiset(m)[d] > 0;
    }
  }

  /** Every matching document is shown on exactly the page its position puts it on. */
  lemma EveryMatchIsOnSomePage(all: seq<Document>, s: Session, i: nat)
    requires i < |Matching(all, s)|
    ensures PagesUpTo(Matching(all, s), TotalPages(|Matching(all, s)|)) == Matching(all, s)
    ensures i / PageSize + 1 <= TotalPages(|Matching(all, s)|)
    ensures PageItems(Matching(all, s), i / PageSize + 1)[i % PageSize] == Matching(all, s)[i]
  {
    var m := Matching(all, s);
    AllPagesReassemble(m);
    ItemOnItsPage(m, i);
  }

  // ---------------------------------------------------------------------------
  // The user-id list of the filter box

  /** `str(doc['user_id'])` for every document, in order. */
  function IdTexts(docs: seq<Document>): (r: seq<string>)
    ensures |r| == |docs|
    ensures forall i :: 0 <= i < |docs| ==> r[i] == IdText(docs[i].userId)
  {
    if |docs| == 0 then [] else [IdText(docs[0].userId)] + IdTexts(docs[1..])
  }

  /** `sorted(list({str(doc['user_id']) for doc in all_documents}))` */
  function UniqueUserIds(docs: seq<Document>): (r: seq<string>)
    ensures StrictlyIncreasing(r)
    ensures forall x :: x in r <==> exists i :: 0 <= i < |docs| && IdText(docs[i].userId) == x
  {
    var ids := IdTexts(docs);
    var r := SortedDistinct(ids);
    assert forall x :: x in ids <==> exists i :: 0 <= i < |docs| && IdText(docs[i].userId) == x by {
      forall x ensures x in ids <==> exists i :: 0 <= i < |docs| && IdText(docs[i].userId) == x {
        if x in ids {
          var i :| 0 <= i < |ids| && ids[i] == x;
        }
      }
    }
    r
  }

  /** The list is computed once and then kept in the session until something pops it. */
  function EnsureUniqueIds(s: Session, docs: seq<Document>): (r: Session)
    ensures r.uniqueUserIds.Some?
    ensures s.uniqueUserIds.Some? ==> r == s
    ensures s.uniqueUserIds.None? ==> r == s.(uniqueUserIds := Some(UniqueUserIds(docs)))
  {
    if s.uniqueUserIds.Some? then s else s.(uniqueUserIds := Some(UniqueUserIds(docs)))
  }

  // ---------------------------------------------------------------------------
  // The user selectbox

  const AllUsers: string := "All Users"

  /** Python's `list.index`: the first position of `x`, or None where Python raises ValueError. */
  function IndexOf<T(==)>(s: seq<T>, x: T): (r: Option<nat>)
    ensures r.None? <==> x !in s
    ensures r.Some? ==> r.value < |s| && s[r.value] == x && forall j :: 0 <= j < r.value ==> s[j] != x
  {
    if |s| == 0 then None
    else if s[0] == x then Some(0)
    else
      match IndexOf(s[1..], x)
      case None => None
      case Some(i) => Some(i + 1)
  }

  /**
   The selectbox's initial index as written:
   `0 if not user_filter else user_options.index(user_filter)`.
   None stands for the ValueError raised when the stored filter is no longer
   among the options.
   */
  function SelectedIndexAsWritten(options: seq<string>, filter: string): (r: Option<nat>)
    ensures filter == "" ==> r == Some(0)
    ensures r.None? <==> filter != "" && filter !in options
    ensures r.Some? ==> r.value < |options| || (filter == "" && r.value == 0)
    ensures r.Some? && filter != "" ==> options[r.value] == filter
    ensures r.Some? && filter != "" ==> forall j :: 0 <= j < r.value ==> options[j] != filter
  {
    if filter == "" then Some(0) else IndexOf(options, filter)
  }

  /**
   Deleting the last document of the user the list is filtered by pops the
   cached id list; on the next render the rebuilt options no longer hold
   that id and computing the selectbox index raises.
   */
  lemma StaleFilterRaises(s: Session, reply: Reply, docsAfter: seq<Document>)
    requires IsOk(reply)
    requires s.userFilter != "" && s.userFilter != AllUsers
    requires forall i :: 0 <= i < |docsAfter| ==> IdText(docsAfter[i].userId) != s.userFilter
    ensures var s1 := EnsureUniqueIds(DeleteDocument(s, reply), docsAfter);
            SelectedIndexAsWritten([AllUsers] + s1.uniqueUserIds.value, s1.userFilter).None?
  {
    var ids := UniqueUserIds(docsAfter);
    assert s.userFilter !in ids;
  }

  /**
   The corrected index: a stored filter that is no longer offered falls back
   to "All Users" (index 0) instead of raising.
   */
  function SelectedIndex(options: seq<string>, filter: string): (r: nat)
    requires |options| > 0 && options[0] == AllUsers
    ensures r < |options|
    ensures filter != "" && filter in options ==> options[r] == filter
    ensures filter == "" || filter !in options ==> r == 0
  {
    if filter == "" then 0
    else match IndexOf(options, filter)
      case None => 0
      case Some(i) => i
  }

  /**
   With the corrected index the same delete leaves the selectbox on
   "All Users", and the next selection clears the stale filter.
   */
  lemma StaleFilterFallsBack(s: Session, reply: Reply, docsAfter: seq<Document>)
    requires IsOk(reply)
    requires s.userFilter != "" && s.userFilter != AllUsers
    requires forall i :: 0 <= i < |docsAfter| ==> IdText(docsAfter[i].userId) != s.userFilter
    ensures var s1 := EnsureUniqueIds(DeleteDocument(s, reply), docsAfter);
            var options := [AllUsers] + s1.uniqueUserIds.value;
            && SelectedIndex(options, s1.userFilter) == 0
            && SelectUser(s1, options[SelectedIndex(options, s1.userFilter)]).userFilter == ""
  {
    var ids := UniqueUserIds(docsAfter);
    assert s.userFilter !in [AllUsers] + ids;
  }

  /** The corrected index agrees with the source wherever the source does not raise. */
  lemma SelectedIndexAgrees(options: seq<string>, filter: string)
    requires |options| > 0 && options[0] == AllUsers
    requires SelectedIndexAsWritten(options, filter).Some?
    ensures SelectedIndex(options, filter) == SelectedIndexAsWritten(options, filter).value
  {
  }

  /** `user_filter = selected if selected != 'All Users' else ""` */
  function SelectUser(s: Session, selected: string): (r: Session)
    ensures r == s.(userFilter := r.userFilter)
    ensures r.userFilter == "" <==> selected == AllUsers || selected == ""
    ensures r.userFilter != "" ==> r.userFilter == selected
  {
    s.(userFilter := if selected != AllUsers then selected else "")
  }

  // ---------------------------------------------------------------------------
  // Search box debounce

  /** More than one second (`> 1.0` s) since the last recorded keystroke. */
  const QuietMs: int := 1000

  /**
   The debounce as written. A changed query is committed (and the page reset
   to 1) when more than a second has passed since `last_typing_time`;
   otherwise only the time is recorded and the query is held. A commit does
   not record the time, and the time starts at 0.
   */
  function Debounce(s: Session, newQuery: string, nowMs: int): (r: Session)
    ensures newQuery == s.searchQuery ==> r == s
    ensures newQuery != s.searchQuery && nowMs - s.lastTypingMs > QuietMs ==>
      r == s.(searchQuery := newQuery, docPage := 1)
    ensures newQuery != s.searchQuery && nowMs - s.lastTypingMs <= QuietMs ==>
      r == s.(lastTypingMs := nowMs)
    ensures r.searchQuery == s.searchQuery || r.searchQuery == newQuery
    ensures r.searchQuery != s.searchQuery ==> nowMs - s.lastTypingMs > QuietMs
  {
    if newQuery != s.searchQuery then
      if nowMs - s.lastTypingMs > QuietMs then
        s.(searchQuery := newQuery, docPage := 1)
      else
        s.(lastTypingMs := nowMs)
    else
      s
  }

  /** One render of the search box: the text it shows and the wall clock. */
  datatype Keystroke = Keystroke(query: string, ms: int)

  /** Renders in order through the debounce as written. */
  function Typing(s: Session, keys: seq<Keystroke>): Session
    decreases |keys|
  {
    if |keys| == 0 then s else Typing(Debounce(s, keys[0].query, keys[0].ms), keys[1..])
  }

  /**
   With the stored time still 0, any wall-clock time after the first second
   of 1970 is more than a second past it: every render commits what the box
   shows, the hold branch never runs, and the time stays 0. Fast typing is
   never held.
   */
  lemma {:induction false} TypingNeverHolds(s: Session, keys: seq<Keystroke>)
    requires s.lastTypingMs == 0
    requires forall i :: 0 <= i < |keys| ==> keys[i].ms > QuietMs
    ensures Typing(s, keys).lastTypingMs == 0
    ensures |keys| > 0 ==> Typing(s, keys).searchQuery == keys[|keys| - 1].query
    ensures forall i :: 0 <= i < |keys| && keys[i].query != Typing(s, keys[..i]).searchQuery ==>
      Typing(s, keys[..i + 1]).searchQuery == keys[i].query
    decreases |keys|
  {
    if |keys| > 0 {
      var s1 := Debounce(s, keys[0].query, keys[0].ms);
      assert s1.searchQuery == keys[0].query && s1.lastTypingMs == 0;
      TypingNeverHolds(s1, keys[1..]);
      forall i | 0 <= i < |keys| && keys[i].query != Typing(s, keys[..i]).searchQuery
        ensures Typing(s, keys[..i + 1]).searchQuery == keys[i].query
      {
        if i == 0 {
          assert keys[..1][1..] == [];
        } else {
          assert keys[..i][1..] == keys[1..][..i - 1];
          assert keys[..i + 1][1..] == keys[1..][..i];
        }
      }
    }
  }

  /**
   The evidently intended debounce: every changed query records its time, so
   a change within a second of the previous one is held.
   */
  function DebounceIntended(s: Session, newQuery: string, nowMs: int): (r: Session)
    ensures newQuery == s.searchQuery ==> r == s
    ensures newQuery != s.searchQuery ==> r.lastTypingMs == nowMs
    ensures newQuery != s.searchQuery && nowMs - s.lastTypingMs > QuietMs ==>
      r == s.(searchQuery := newQuery, docPage := 1, lastTypingMs := nowMs)
    ensures newQuery != s.searchQuery && nowMs - s.lastTypingMs <= QuietMs ==>
      r == s.(lastTypingMs := nowMs)
  {
    if newQuery == s.searchQuery then s
    else if nowMs - s.lastTypingMs > QuietMs then
      s.(searchQuery := newQuery, docPage := 1, lastTypingMs := nowMs)
    else
      s.(lastTypingMs := nowMs)
  }

  /** Renders in order through the intended debounce. */
  function TypingIntended(s: Session, keys: seq<Keystroke>): Session
    decreases |keys|
  {
    if |keys| == 0 then s else TypingIntended(DebounceIntended(s, keys[0].query, keys[0].ms), keys[1..])
  }

  /**
   With the intended debounce, a held query is committed by the next render
   that comes more than a second after it was held, provided the box still
   shows it.
   */
  lemma HeldQueryCommitsLater(s: Session, q: string, t1: int, t2: int)
    requires q != s.searchQuery
    requires t2 - t1 > QuietMs
    ensures DebounceIntended(DebounceIntended(s, q, t1), q, t2).searchQuery == q
    ensures DebounceIntended(DebounceIntended(s, q, t1), q, t2).docPage == 1
  {
    var s1 := DebounceIntended(s, q, t1);
    if s1.searchQuery != q {
      assert s1 == s.(lastTypingMs := t1);
    }
  }

  /** With the intended debounce, a second change within a second of the first is held. */
  lemma FastTypingHolds(s: Session, q1: string, t1: int, q2: string, t2: int)
    requires q1 != s.searchQuery
    requires q2 != DebounceIntended(s, q1, t1).searchQuery
    requires t2 - t1 <= QuietMs
    ensures DebounceIntended(DebounceIntended(s, q1, t1), q2, t2).searchQuery
      == DebounceIntended(s, q1, t1).searchQuery
    ensures DebounceIntended(DebounceIntended(s, q1, t1), q2, t2).lastTypingMs == t2
  {
  }

  /** Renders no earlier than `t0` and within a second of it leave the query alone. */
  lemma {:induction false} BurstKeepsQuery(s: Session, keys: seq<Keystroke>, t0: int)
    requires s.lastTypingMs >= t0
    requires forall i :: 0 <= i < |keys| ==> t0 <= keys[i].ms <= t0 + QuietMs
    ensures TypingIntended(s, keys).searchQuery == s.searchQuery
    ensures TypingIntended(s, keys).docPage == s.docPage
    ensures TypingIntended(s, keys).lastTypingMs >= t0
    decreases |keys|
  {
    if |keys| > 0 {
      var s1 := DebounceIntended(s, keys[0].query, keys[0].ms);
      assert s1.searchQuery == s.searchQuery && s1.docPage == s.docPage && s1.lastTypingMs >= t0;
      BurstKeepsQuery(s1, keys[1..], t0);
    }
  }

  /**
   With the intended debounce, a burst of edits all within a second of the
   first one commits at most that first edit: the query and page after the
   burst are those the first render left.
   */
  lemma {:induction false} IntendedBurstHolds(s: Session, keys: seq<Keystroke>)
    requires |keys| > 0 && keys[0].query != s.searchQuery
    requires forall i :: 0 < i < |keys| ==> keys[0].ms <= keys[i].ms <= keys[0].ms + QuietMs
    ensures TypingIntended(s, keys).searchQuery == DebounceIntended(s, keys[0].query, keys[0].ms).searchQuery
    ensures TypingIntended(s, keys).docPage == DebounceIntended(s, keys[0].query, keys[0].ms).docPage
  {
    var s1 := DebounceIntended(s, keys[0].query, keys[0].ms);
    assert forall i :: 0 <= i < |keys[1..]| ==> keys[1..][i] == keys[i + 1];
    BurstKeepsQuery(s1, keys[1..], keys[0].ms);
  }

  // ---------------------------------------------------------------------------
  // Buttons

  /** The sort button flips the order and keeps the page. */
  function ToggleDocSort(s: Session): (r: Session)
    ensures r.sortDocs != s.sortDocs
    ensures r == s.(sortDocs := r.sortDocs)
  {
    s.(sortDocs := Toggle(s.sortDocs))
  }

  lemma ToggleDocSortTwice(s: Session)
    ensures ToggleDocSort(ToggleDocSort(s)) == s
  {
    ToggleInvolution(s.sortDocs);
  }

  /** "◀ Prev" on the documents list. */
  function DocPrev(s: Session): (r: Session)
    ensures r == s.(docPage := r.docPage)
    ensures s.docPage == 1 ==> r == s
    ensures s.docPage > 1 ==> r.docPage == s.docPage - 1
  {
    s.(docPage := PrevPage(s.docPage))
  }

  /** "Next ▶" on the documents list, given the page count of this render. */
  function DocNext(s: Session, total: Page): (r: Session)
    ensures r == s.(docPage := r.docPage)
    ensures s.docPage >= total ==> r == s
    ensures s.docPage < total ==> r.docPage == s.docPage + 1 <= total
  {
    s.(docPage := NextPage(s.docPage, total))
  }

  /**
   "Delete Document" (no confirmation step). A 200 reply drops the cached
   documents and user-id list and goes back to page 1; anything else leaves
   the session as it was.
   */
  function DeleteDocument(s: Session, reply: Reply): (r: Session)
    ensures IsOk(reply) ==>
      r == s.(documentsCache := None, uniqueUserIds := None, docPage := 1)
    ensures !IsOk(reply) ==> r == s
  {
    if IsOk(reply) then s.(documentsCache := None, uniqueUserIds := None, docPage := 1) else s
  }

  /** After a successful delete the next render rebuilds the id list from the refetched documents. */
  lemma DeleteRefreshesIdList(s: Session, reply: Reply, docsAfter: seq<Document>)
    ensures IsOk(reply) ==>
      EnsureUniqueIds(DeleteDocument(s, reply), docsAfter).uniqueUserIds == Some(UniqueUserIds(docsAfter))
    ensures !IsOk(reply) && s.uniqueUserIds.Some? ==>
      EnsureUniqueIds(DeleteDocument(s, reply), docsAfter).uniqueUserIds == s.uniqueUserIds
  {
  }
}

=== FILE: pagination.dfy ===
/**
 Page arithmetic shared by the documents and users views: eight items per
 page, a page count that is never below one, Python's slice of one page,
 and the Prev / Next buttons.
 */
module Pagination {

  const PageSize: nat := 8

  /** Page numbers start at 1; the session never holds anything smaller. */
  type Page = p: int | p >= 1 witness 1

  function Min(a: int, b: int): int { if a <= b then a else b }

  /** `max(1, n // 8 + (1 if n % 8 > 0 else 0))`: the ceiling of n / 8, at least 1. */
  function TotalPages(n: nat): (t: Page)
    ensures n <= t * PageSize
    ensures n > 0 ==> (t - 1) * PageSize < n
    ensures n == 0 ==> t == 1
  {
    var c := n / PageSize + (if n % PageSize > 0 then 1 else 0);
    if c < 1 then 1 else c
  }

  /** No smaller page count covers `n` items. */
  lemma TotalPagesLeast(n: nat, t: int)
    requires t >= 1 && n <= t * PageSize
    ensures TotalPages(n) <= t
  {
    var tp := TotalPages(n);
    assert n == 0 || (tp - 1) * PageSize < t * PageSize;
  }

  /** Python's `s[start:stop]` for non-negative bounds: both are cut to the length. */
  function Slice<T>(s: seq<T>, start: nat, stop: nat): (r: seq<T>)
    ensures |r| == if Min(start, |s|) < Min(stop, |s|) then Min(stop, |s|) - Min(start, |s|) else 0
    ensures forall i :: 0 <= i < |r| ==> start + i < |s| && r[i] == s[start + i]
  {
    var a := Min(start, |s|);
    var b := Min(stop, |s|);
    if a < b then s[a..b] else []
  }

  /** `items[(page - 1) * 8 : min(page * 8, len(items))]`. */
  function PageItems<T>(items: seq<T>, page: Page): (r: seq<T>)
    ensures |r| <= PageSize
    ensures forall i :: 0 <= i < |r| ==>
      (page - 1) * PageSize + i < |items| && r[i] == items[(page - 1) * PageSize + i]
    ensures |items| > 0 && page <= TotalPages(|items|) ==> |r| > 0
    ensures page < TotalPages(|items|) ==> |r| == PageSize
    ensures page > TotalPages(|items|) ==> r == []
    ensures |items| > 0 && page == TotalPages(|items|) ==> |r| == |items| - (page - 1) * PageSize
  {
    Slice(items, (page - 1) * PageSize, Min(page * PageSize, |items|))
  }

  /** Pages 1..k laid end to end. */
  function PagesUpTo<T>(items: seq<T>, k: nat): seq<T> {
    if k == 0 then [] else PagesUpTo(items, k - 1) + PageItems(items, k)
  }

  lemma {:induction false} PagesUpToIsPrefix<T>(items: seq<T>, k: nat)
    ensures PagesUpTo(items, k) == items[..Min(k * PageSize, |items|)]
  {
    if k > 0 {
      PagesUpToIsPrefix(items, k - 1);
      var lo := Min((k - 1) * PageSize, |items|);
      var hi := Min(k * PageSize, |items|);
      var p := PageItems(items, k);
      assert |p| == hi - lo;
      assert items[..hi] == items[..lo] + items[lo..hi];
      assert p == items[lo..hi];
    }
  }

  /** Reading every page in order gives back the whole list, nothing lost or repeated. */
  lemma AllPagesReassemble<T>(items: seq<T>)
    ensures PagesUpTo(items, TotalPages(|items|)) == items
  {
    PagesUpToIsPrefix(items, TotalPages(|items|));
    assert items[..|items|] == items;
  }

  /** Item `i` is shown on page `i / 8 + 1`, at row `i % 8`. */
  lemma ItemOnItsPage<T>(items: seq<T>, i: nat)
    requires i < |items|
    ensures i % PageSize < |PageItems(items, i / PageSize + 1)|
    ensures PageItems(items, i / PageSize + 1)[i % PageSize] == items[i]
  {
  }

  // ---------------------------------------------------------------------------
  // Navigation

  /** The documents view's reset: a page past the end goes back to page 1. */
  function ClampPage(page: Page, total: Page): (p: Page)
    ensures p <= total
    ensures page <= total ==> p == page
    ensures p != page ==> p == 1
  {
    if page > total then 1 else page
  }

  /** "Prev": disabled on page 1, otherwise one page back. */
  function PrevPage(page: Page): (p: Page)
    ensures page - 1 <= p <= page
    ensures p == page <==> page == 1
  {
    if page == 1 then page else page - 1
  }

  /** "Next": disabled from the last page on, otherwise one page forward. */
  function NextPage(page: Page, total: Page): (p: Page)
    ensures page <= p <= page + 1
    ensures p == page <==> page >= total
    ensures page <= total ==> p <= total
  {
    if page >= total then page else page + 1
  }

  /** Next then Prev, and Prev then Next, come back to the page they started on. */
  lemma PrevUndoesNext(page: Page, total: Page)
    requires page < total
    ensures PrevPage(NextPage(page, total)) == page
  {
  }

  lemma NextUndoesPrev(page: Page, total: Page)
    requires 1 < page <= total
    ensures NextPage(PrevPage(page), total) == page
  {
  }
}

=== FILE: records.dfy ===
/**
 The records the dashboard receives from the backend, as the fields it reads
 from the decoded JSON objects.
 */
module Records {

  datatype Option<T> = None | Some(value: T) {
    /** Python's `d.get(key, default)` once the key's presence is known. */
    function GetOr(default: T): T {
      match this
      case Some(v) => v
      case None => default
    }
  }

  /** A JSON `user_id`: the backend may send a number or a string. */
  datatype UserId = NumId(n: int) | TextId(text: string)

  predicate IsDigit(c: char) {
    '0' <= c <= '9'
  }

  function DigitChar(d: nat): (c: char)
    requires d < 10
    ensures IsDigit(c) && (c as int) - ('0' as int) == d
  {
    (('0' as int) + d) as char
  }

  /** The number a string of decimal digits denotes, read most significant digit first. */
  function DigitsValue(t: string): nat
    requires forall i :: 0 <= i < |t| ==> IsDigit(t[i])
    decreases |t|
  {
    if |t| == 0 then 0
    else
      assert IsDigit(t[|t| - 1]);
      DigitsValue(t[..|t| - 1]) * 10 + ((t[|t| - 1] as int) - ('0' as int))
  }

  /** Decimal digits of a natural number, as Python's `str` writes them. */
  function NatText(n: nat): (r: string)
    ensures |r| > 0
    ensures forall i :: 0 <= i < |r| ==> IsDigit(r[i])
    ensures r[0] == '0' ==> r == "0"
    ensures DigitsValue(r) == n
    decreases n
  {
    if n < 10 then [DigitChar(n)]
    else
      var r := NatText(n / 10) + [DigitChar(n % 10)];
      assert r[..|r| - 1] == NatText(n / 10);
      r
  }

  /** Python's `str(user_id)`. */
  function IdText(id: UserId): (r: string)
    ensures id.TextId? ==> r == id.text
    ensures id.NumId? && id.n >= 0 ==> r == NatText(id.n)
    ensures id.NumId? && id.n < 0 ==> r == "-" + NatText(-id.n)
  {
    match id
    case NumId(n) => if n < 0 then "-" + NatText(-n) else NatText(n)
    case TextId(t) => t
  }

  /**
   Different numbers have different texts, so the user filter and the id
   list tell numeric ids apart. (A text id such as "7" does share its text
   with the number 7, as in Python.)
   */
  lemma {:induction false} IdTextInjective(a: int, b: int)
    requires IdText(NumId(a)) == IdText(NumId(b))
    ensures a == b
  {
    var ta := IdText(NumId(a));
    if a >= 0 && b >= 0 {
      assert DigitsValue(NatText(a)) == a && DigitsValue(NatText(b)) == b;
    } else if a < 0 && b < 0 {
      assert ta[1..] == NatText(-a);
      assert IdText(NumId(b))[1..] == NatText(-b);
      assert DigitsValue(NatText(-a)) == -a && DigitsValue(NatText(-b)) == -b;
    }
  }

  datatype Document = Document(
    id: string,
    filename: string,
    fileType: string,
    uploadTime: string,   // ISO-8601 text, compared as a string
    userId: UserId,
    isVectorized: bool,
    path: string,
    summary: Option<string>)

  datatype User = User(
    id: string,
    username: string,
    email: string,
    isAdmin: bool,
    isActive: bool,
    createdAt: string,    // ISO-8601 text, compared as a string
    geminiKeySet: bool)

  /** The sort key of the documents view. */
  function UploadTime(d: Document): string { d.uploadTime }

  /** The sort key of the users view. */
  function CreatedAt(u: User): string { u.createdAt }

  /** A decoded JSON response body, or one that `response.json()` cannot decode. */
  datatype Body =
    | Malformed
    | Json(detail: Option<string>,
           accessToken: Option<string>,
           userId: Option<UserId>,
           username: Option<string>)

  /**
   The outcome of one HTTP request: the connection was refused, some other
   exception escaped `requests`, or a response arrived.
   */
  datatype Reply =
    | ConnectionError
    | OtherError
    | Response(status: int, body: Body)

  predicate IsOk(r: Reply) {
    r.Response? && r.status == 200
  }
}

=== FILE: seqs.dfy ===
/**
 Sequence helpers shared by the two collection views: order-preserving
 filtering (Python's list comprehension with an `if` clause) and the
 subsequence relation it establishes.
 */
module Seqs {

  /** `a` can be obtained from `b` by deleting elements, keeping the order. */
  predicate IsSubseq<T(==)>(a: seq<T>, b: seq<T>)
    decreases |b|
  {
    if |a| == 0 then true
    else if |b| == 0 then false
    else (a[0] == b[0] && IsSubseq(a[1..], b[1..])) || IsSubseq(a, b[1..])
  }

  lemma {:induction false} IsSubseqReflexive<T>(s: seq<T>)
    ensures IsSubseq(s, s)
    decreases |s|
  {
    if |s| > 0 {
      IsSubseqReflexive(s[1..]);
    }
  }

  /** `[x for x in s if p(x)]`. */
  function Filter<T(==,!new)>(s: seq<T>, p: T -> bool): (r: seq<T>)
    ensures IsSubseq(r, s)
    ensures forall i :: 0 <= i < |r| ==> p(r[i])
    ensures forall x :: multiset(r)[x] == if p(x) then multiset(s)[x] else 0
    ensures (forall i :: 0 <= i < |s| ==> p(s[i])) ==> r == s
    decreases |s|
  {
    if |s| == 0 then []
    else
      var rest := Filter(s[1..], p);
      var r := if p(s[0]) then [s[0]] + rest else rest;
      StepSubseq(s, rest, r);
      StepMultiset(s, p, rest, r);
      StepKeeps(s, p, rest, r);
      r
  }

  /** Every kept element passes, and nothing is dropped when everything passes. */
  lemma StepKeeps<T>(s: seq<T>, p: T -> bool, rest: seq<T>, r: seq<T>)
    requires |s| > 0
    requires forall i :: 0 <= i < |rest| ==> p(rest[i])
    requires (forall i :: 1 <= i < |s| ==> p(s[i])) ==> rest == s[1..]
    requires r == if p(s[0]) then [s[0]] + rest else rest
    ensures forall i :: 0 <= i < |r| ==> p(r[i])
    ensures (forall i :: 0 <= i < |s| ==> p(s[i])) ==> r == s
  {
    if forall i :: 0 <= i < |s| ==> p(s[i]) {
      assert s == [s[0]] + s[1..];
    }
  }

  /** Keeping or dropping the head of `s` in front of a subsequence of its tail. */
  lemma StepSubseq<T>(s: seq<T>, rest: seq<T>, r: seq<T>)
    requires |s| > 0 && IsSubseq(rest, s[1..])
    requires r == [s[0]] + rest || r == rest
    ensures IsSubseq(r, s)
  {
    if r == [s[0]] + rest && |r| > 0 {
      assert r[1..] == rest;
    }
  }

  /** The head is counted in the result exactly when it passes `p`. */
  lemma StepMultiset<T>(s: seq<T>, p: T -> bool, rest: seq<T>, r: seq<T>)
    requires |s| > 0
    requires forall x :: multiset(rest)[x] == if p(x) then multiset(s[1..])[x] else 0
    requires r == if p(s[0]) then [s[0]] + rest else rest
    ensures forall x :: multiset(r)[x] == if p(x) then multiset(s)[x] else 0
  {
    assert s == [s[0]] + s[1..];
    assert multiset(s) == multiset{s[0]} + multiset(s[1..]);
  }

  /** Two filters commute: the order in which the dashboard applies them is immaterial. */
  lemma {:induction false} FilterCommute<T(!new)>(s: seq<T>, p: T -> bool, q: T -> bool)
    ensures Filter(Filter(s, p), q) == Filter(Filter(s, q), p)
    decreases |s|
  {
    if |s| > 0 {
      FilterCommute(s[1..], p, q);
    }
  }
}

=== FILE: sorting.dfy ===
/**
 Python's `sorted(items, key=..., reverse=...)` over string keys.

 Python's sort is stable in both directions: with `reverse=True` the order is
 descending by key, but elements with equal keys still keep their input
 order. The model is a stable insertion sort; `SortedUnique` shows that any
 ordered, stable permutation of the input is this one, so the choice of
 algorithm does not matter.
 */
module Sorting {
  import opened Text
  import Seqs

  /** Key `a` may stand before key `b` (ascending: a <= b; descending: b <= a). */
  predicate InOrder(a: string, b: string, desc: bool) {
    if desc then LessEq(b, a) else LessEq(a, b)
  }

  predicate Ordered<T>(s: seq<T>, key: T -> string, desc: bool) {
    forall i, j :: 0 <= i < j < |s| ==> InOrder(key(s[i]), key(s[j]), desc)
  }

  /** The elements of `s` whose key is `k`, in their order in `s`. */
  function KeyClass<T(==,!new)>(s: seq<T>, key: T -> string, k: string): seq<T> {
    Seqs.Filter(s, x => key(x) == k)
  }

  /** Equal keys appear in `r` in the same relative order as in `s`. */
  ghost predicate Stable<T(!new)>(r: seq<T>, s: seq<T>, key: T -> string) {
    forall k :: KeyClass(r, key, k) == KeyClass(s, key, k)
  }

  lemma InOrderTotal(a: string, b: string, desc: bool)
    ensures InOrder(a, b, desc) || InOrder(b, a, desc)
  {
    LessEqTotal(a, b);
  }

  lemma InOrderTransitive(a: string, b: string, c: string, desc: bool)
    requires InOrder(a, b, desc) && InOrder(b, c, desc)
    ensures InOrder(a, c, desc)
  {
    if desc {
      LessEqTransitive(c, b, a);
    } else {
      LessEqTransitive(a, b, c);
    }
  }

  lemma InOrderAntisymmetric(a: string, b: string, desc: bool)
    requires InOrder(a, b, desc) && InOrder(b, a, desc)
    ensures a == b
  {
    LessEqAntisymmetric(a, b);
  }

  lemma InOrderReflexive(a: string, desc: bool)
    ensures InOrder(a, a, desc)
  {
    LessEqReflexive(a);
  }

  /** Splitting a sequence splits each of its key classes. */
  lemma {:induction false} KeyClassAppend<T(!new)>(a: seq<T>, b: seq<T>, key: T -> string, k: string)
    ensures KeyClass(a + b, key, k) == KeyClass(a, key, k) + KeyClass(b, key, k)
    decreases |a|
  {
    if |a| > 0 {
      assert (a + b)[1..] == a[1..] + b;
      KeyClassAppend(a[1..], b, key, k);
    } else {
      assert a + b == b;
    }
  }

  lemma KeyClassSingleton<T(!new)>(x: T, key: T -> string, k: string)
    ensures KeyClass([x], key, k) == if key(x) == k then [x] else []
  {
    assert [x][1..] == [];
  }

  /** A class is empty when no element carries its key. */
  lemma {:induction false} KeyClassEmpty<T(!new)>(s: seq<T>, key: T -> string, k: string)
    requires forall i :: 0 <= i < |s| ==> key(s[i]) != k
    ensures KeyClass(s, key, k) == []
    decreases |s|
  {
    if |s| > 0 {
      KeyClassEmpty(s[1..], key, k);
    }
  }

  /** Insert `x` after every element it may not precede. */
  function Insert<T(==,!new)>(s: seq<T>, x: T, key: T -> string, desc: bool): (r: seq<T>)
    requires Ordered(s, key, desc)
    ensures Ordered(r, key, desc)
    ensures multiset(r) == multiset(s) + multiset{x}
    ensures forall i :: 0 <= i < |r| ==> r[i] == x || r[i] in s
    ensures forall k :: KeyClass(r, key, k) == KeyClass(s, key, k) + KeyClass([x], key, k)
    decreases |s|
  {
    if |s| == 0 then
      [x]
    else if !InOrder(key(s[0]), key(x), desc) then
      InsertFront(s, x, key, desc);
      [x] + s
    else
      var rest := Insert(s[1..], x, key, desc);
      InsertBehind(s, x, rest, key, desc);
      assert s == [s[0]] + s[1..];
      assert forall i :: 0 <= i < |rest| ==> rest[i] == x || rest[i] in s by {
        assert forall y :: y in s[1..] ==> y in s;
      }
      [s[0]] + rest
  }

  /** `x` goes in front: every key in `s` is strictly after `key(x)`. */
  lemma InsertFront<T(!new)>(s: seq<T>, x: T, key: T -> string, desc: bool)
    requires Ordered(s, key, desc) && |s| > 0
    requires !InOrder(key(s[0]), key(x), desc)
    ensures Ordered([x] + s, key, desc)
    ensures forall k :: KeyClass([x] + s, key, k) == KeyClass(s, key, k) + KeyClass([x], key, k)
  {
    InOrderTotal(key(s[0]), key(x), desc);
    forall j | 0 <= j < |s|
      ensures InOrder(key(x), key(s[j]), desc) && key(s[j]) != key(x)
    {
      if j > 0 {
        InOrderTransitive(key(x), key(s[0]), key(s[j]), desc);
      }
      if key(s[j]) == key(x) {
        if j == 0 {
          InOrderReflexive(key(x), desc);
        }
      }
    }
    forall k
      ensures KeyClass([x] + s, key, k) == KeyClass(s, key, k) + KeyClass([x], key, k)
    {
      KeyClassAppend([x], s, key, k);
      KeyClassSingleton(x, key, k);
      if key(x) == k {
        KeyClassEmpty(s, key, k);
      }
    }
  }

  /** `x` goes behind `s[0]`: the recursive result keeps the head in front. */
  lemma InsertBehind<T(!new)>(s: seq<T>, x: T, rest: seq<T>, key: T -> string, desc: bool)
    requires Ordered(s, key, desc) && |s| > 0
    requires InOrder(key(s[0]), key(x), desc)
    requires Ordered(rest, key, desc)
    requires forall i :: 0 <= i < |rest| ==> rest[i] == x || rest[i] in s[1..]
    requires forall k :: KeyClass(rest, key, k) == KeyClass(s[1..], key, k) + KeyClass([x], key, k)
    ensures Ordered([s[0]] + rest, key, desc)
    ensures forall k :: KeyClass([s[0]] + rest, key, k) == KeyClass(s, key, k) + KeyClass([x], key, k)
  {
    HeadBeforeRest(s, x, rest, key, desc);
    assert [s[0]] + s[1..] == s;
    forall k
      ensures KeyClass([s[0]] + rest, key, k) == KeyClass(s, key, k) + KeyClass([x], key, k)
    {
      ClassBehind(s[0], s[1..], x, rest, key, k);
    }
  }

  /** One key class of `[a] + rest`, given that class of `rest`. */
  lemma ClassBehind<T(!new)>(a: T, tl: seq<T>, x: T, rest: seq<T>, key: T -> string, k: string)
    requires KeyClass(rest, key, k) == KeyClass(tl, key, k) + KeyClass([x], key, k)
    ensures KeyClass([a] + rest, key, k) == KeyClass([a] + tl, key, k) + KeyClass([x], key, k)
  {
    var h := if key(a) == k then [a] else [];
    assert KeyClass([a] + rest, key, k) == h + KeyClass(rest, key, k) by {
      KeyClassCons([a] + rest, key, k);
      assert ([a] + rest)[1..] == rest;
    }
    assert KeyClass([a] + tl, key, k) == h + KeyClass(tl, key, k) by {
      KeyClassCons([a] + tl, key, k);
      assert ([a] + tl)[1..] == tl;
    }
    AppendAssoc(h, KeyClass(tl, key, k), KeyClass([x], key, k));
  }

  lemma AppendAssoc<T>(a: seq<T>, b: seq<T>, c: seq<T>)
    ensures a + (b + c) == (a + b) + c
  {
  }

  lemma HeadBeforeRest<T(!new)>(s: seq<T>, x: T, rest: seq<T>, key: T -> string, desc: bool)
    requires Ordered(s, key, desc) && |s| > 0
    requires InOrder(key(s[0]), key(x), desc)
    requires Ordered(rest, key, desc)
    requires forall i :: 0 <= i < |rest| ==> rest[i] == x || rest[i] in s[1..]
    ensures Ordered([s[0]] + rest, key, desc)
  {
    forall j | 0 <= j < |rest|
      ensures InOrder(key(s[0]), key(rest[j]), desc)
    {
      if rest[j] != x {
        var i :| 0 <= i < |s[1..]| && s[1..][i] == rest[j];
        assert s[i + 1] == rest[j];
      }
    }
    var t := [s[0]] + rest;
    forall i, j | 0 <= i < j < |t|
      ensures InOrder(key(t[i]), key(t[j]), desc)
    {
      if i > 0 {
        assert t[i] == rest[i - 1] && t[j] == rest[j - 1];
      } else {
        assert t[j] == rest[j - 1];
      }
    }
  }

  /** `sorted(s, key=key, reverse=desc)`. */
  function SortBy<T(==,!new)>(s: seq<T>, key: T -> string, desc: bool): (r: seq<T>)
    ensures Ordered(r, key, desc)
    ensures multiset(r) == multiset(s)
    ensures Stable(r, s, key)
    decreases |s|
  {
    if |s| == 0 then
      []
    else
      var front := s[..|s| - 1];
      var r := Insert(SortBy(front, key, desc), s[|s| - 1], key, desc);
      assert s == front + [s[|s| - 1]];
      assert forall k :: KeyClass(s, key, k) == KeyClass(front, key, k) + KeyClass([s[|s| - 1]], key, k) by {
        forall k
          ensures KeyClass(s, key, k) == KeyClass(front, key, k) + KeyClass([s[|s| - 1]], key, k)
        {
          KeyClassAppend(front, [s[|s| - 1]], key, k);
        }
      }
      r
  }

  lemma KeyClassCons<T(!new)>(s: seq<T>, key: T -> string, k: string)
    requires |s| > 0
    ensures KeyClass(s, key, k) == (if key(s[0]) == k then [s[0]] else []) + KeyClass(s[1..], key, k)
  {
  }

  /**
   There is only one ordered, stable arrangement: two ordered sequences with
   the same key classes are equal. Hence `SortBy` is exactly Python's
   `sorted`, whatever algorithm computes it.
   */
  lemma {:induction false} SortedUnique<T(!new)>(a: seq<T>, b: seq<T>, key: T -> string, desc: bool)
    requires Ordered(a, key, desc) && Ordered(b, key, desc)
    requires forall k :: KeyClass(a, key, k) == KeyClass(b, key, k)
    ensures a == b
    decreases |a|
  {
    if |a| == 0 && |b| == 0 {
    } else if |a| == 0 {
      KeyClassCons(b, key, key(b[0]));
    } else if |b| == 0 {
      KeyClassCons(a, key, key(a[0]));
    } else {
      HeadsEqual(a, b, key, desc);
      TailClassesEqual(a, b, key);
      SortedUnique(a[1..], b[1..], key, desc);
      assert a == [a[0]] + a[1..];
      assert b == [b[0]] + b[1..];
    }
  }

  lemma HeadsEqual<T(!new)>(a: seq<T>, b: seq<T>, key: T -> string, desc: bool)
    requires Ordered(a, key, desc) && Ordered(b, key, desc) && |a| > 0 && |b| > 0
    requires forall k :: KeyClass(a, key, k) == KeyClass(b, key, k)
    ensures a[0] == b[0]
  {
    var ka, kb := key(a[0]), key(b[0]);
    KeyClassCons(a, key, ka);
    KeyClassCons(b, key, kb);
    var ca, cb := KeyClass(a, key, ka), KeyClass(b, key, kb);
    assert ca == KeyClass(b, key, ka);
    assert cb == KeyClass(a, key, kb);
    HasKeyAfterHead(b, key, ka, desc, ca);
    HasKeyAfterHead(a, key, kb, desc, cb);
    InOrderAntisymmetric(ka, kb, desc);
  }

  lemma TailClassesEqual<T(!new)>(a: seq<T>, b: seq<T>, key: T -> string)
    requires |a| > 0 && |b| > 0 && a[0] == b[0]
    requires forall k :: KeyClass(a, key, k) == KeyClass(b, key, k)
    ensures forall k :: KeyClass(a[1..], key, k) == KeyClass(b[1..], key, k)
  {
    forall k
      ensures KeyClass(a[1..], key, k) == KeyClass(b[1..], key, k)
    {
      KeyClassCons(a, key, k);
      KeyClassCons(b, key, k);
      assert KeyClass(a, key, k) == KeyClass(b, key, k);
    }
  }

  /** If some element of an ordered `s` has key `k`, the head's key may precede `k`. */
  lemma HasKeyAfterHead<T(!new)>(s: seq<T>, key: T -> string, k: string, desc: bool, cls: seq<T>)
    requires Ordered(s, key, desc) && |s| > 0
    requires cls == KeyClass(s, key, k) && |cls| > 0
    ensures InOrder(key(s[0]), k, desc)
  {
    assert multiset(cls)[cls[0]] > 0;
    assert cls[0] in multiset(s);
    var j :| 0 <= j < |s| && s[j] == cls[0];
    if j == 0 {
      InOrderReflexive(k, desc);
    }
  }

  // ---------------------------------------------------------------------------
  // Descending versus ascending

  function Reverse<T>(s: seq<T>): (r: seq<T>)
    ensures |r| == |s|
    ensures forall i :: 0 <= i < |s| ==> r[i] == s[|s| - 1 - i]
  {
    if |s| == 0 then [] else Reverse(s[1..]) + [s[0]]
  }

  predicate DistinctKeys<T>(s: seq<T>, key: T -> string) {
    forall i, j :: 0 <= i < j < |s| ==> key(s[i]) != key(s[j])
  }

  lemma {:induction false} KeyClassReverse<T(!new)>(s: seq<T>, key: T -> string, k: string)
    ensures KeyClass(Reverse(s), key, k) == Reverse(KeyClass(s, key, k))
    decreases |s|
  {
    if |s| > 0 {
      KeyClassReverse(s[1..], key, k);
      KeyClassAppend(Reverse(s[1..]), [s[0]], key, k);
      KeyClassSingleton(s[0], key, k);
      var c := KeyClass(s[1..], key, k);
      if key(s[0]) == k {
        assert KeyClass(s, key, k) == [s[0]] + c;
        assert Reverse([s[0]] + c) == Reverse(c) + [s[0]] by {
          assert ([s[0]] + c)[1..] == c;
        }
      } else {
        assert KeyClass(s, key, k) == c;
      }
    }
  }

  /** With distinct keys every key class holds at most one element. */
  lemma {:induction false} DistinctKeyClassSmall<T(!new)>(s: seq<T>, key: T -> string, k: string)
    requires DistinctKeys(s, key)
    ensures |KeyClass(s, key, k)| <= 1
    decreases |s|
  {
    if |s| > 0 {
      DistinctKeyClassSmall(s[1..], key, k);
      if key(s[0]) == k {
        assert forall i :: 0 <= i < |s[1..]| ==> key(s[1..][i]) != k by {
          forall i | 0 <= i < |s[1..]|
            ensures key(s[1..][i]) != k
          {
            assert s[1..][i] == s[i + 1];
          }
        }
        KeyClassEmpty(s[1..], key, k);
      }
    }
  }

  /** Reversing an ascending sequence gives a descending one. */
  lemma ReverseOrdered<T>(a: seq<T>, key: T -> string)
    requires Ordered(a, key, false)
    ensures Ordered(Reverse(a), key, true)
  {
    var t := Reverse(a);
    forall i, j | 0 <= i < j < |t|
      ensures InOrder(key(t[i]), key(t[j]), true)
    {
      assert t[i] == a[|a| - 1 - i] && t[j] == a[|a| - 1 - j];
    }
  }

  /**
   When no two elements share a key, sorting descending gives exactly the
   reverse of sorting ascending. (With equal keys it does not: both
   directions keep equal keys in input order.)
   */
  lemma DescIsReverseOfAsc<T(!new)>(s: seq<T>, key: T -> string)
    requires DistinctKeys(s, key)
    ensures SortBy(s, key, true) == Reverse(SortBy(s, key, false))
  {
    var a := SortBy(s, key, false);
    var d := SortBy(s, key, true);
    var t := Reverse(a);
    ReverseOrdered(a, key);
    forall k
      ensures KeyClass(d, key, k) == KeyClass(t, key, k)
    {
      KeyClassReverse(a, key, k);
      DistinctKeyClassSmall(s, key, k);
      var c := KeyClass(a, key, k);
      assert c == KeyClass(s, key, k) == KeyClass(d, key, k);
      assert Reverse(c) == c;
    }
    SortedUnique(d, t, key, true);
  }

  // ---------------------------------------------------------------------------
  // `sorted(set(xs))` over strings

  predicate StrictlyIncreasing(s: seq<string>) {
    forall i, j :: 0 <= i < j < |s| ==> Less(s[i], s[j])
  }

  /** Add `x` to a strictly increasing list unless it is already there. */
  function InsertDistinct(s: seq<string>, x: string): (r: seq<string>)
    requires StrictlyIncreasing(s)
    ensures StrictlyIncreasing(r)
    ensures forall y :: y in r <==> y in s || y == x
    decreases |s|
  {
    if |s| == 0 then
      [x]
    else if x == s[0] then
      s
    else if Less(x, s[0]) then
      assert forall j :: 0 <= j < |s| ==> Less(x, s[j]) by {
        forall j | 0 < j < |s| {
          LessTransitive(x, s[0], s[j]);
        }
      }
      [x] + s
    else
      LessTrichotomy(x, s[0]);
      var rest := InsertDistinct(s[1..], x);
      assert s == [s[0]] + s[1..];
      assert forall j :: 0 <= j < |rest| ==> Less(s[0], rest[j]) by {
        forall j | 0 <= j < |rest|
          ensures Less(s[0], rest[j])
        {
          if rest[j] != x {
            assert rest[j] in s[1..];
          }
        }
      }
      [s[0]] + rest
  }

  /** `sorted(set(xs))`: each value of `xs` once, in increasing order. */
  function SortedDistinct(xs: seq<string>): (r: seq<string>)
    ensures StrictlyIncreasing(r)
    ensures forall y :: y in r <==> y in xs
    decreases |xs|
  {
    if |xs| == 0 then
      []
    else
      var r := InsertDistinct(SortedDistinct(xs[..|xs| - 1]), xs[|xs| - 1]);
      assert xs == xs[..|xs| - 1] + [xs[|xs| - 1]];
      r
  }

  /** A set has exactly one strictly increasing listing. */
  lemma {:induction false} StrictlyIncreasingUnique(a: seq<string>, b: seq<string>)
    requires StrictlyIncreasing(a) && StrictlyIncreasing(b)
    requires forall y :: y in a <==> y in b
    ensures a == b
    decreases |a|
  {
    assert |a| > 0 ==> a[0] in a;
    assert |b| > 0 ==> b[0] in b;
    if |a| > 0 && |b| > 0 {
      assert a[0] == b[0] by {
        assert a[0] in b && b[0] in a;
        if a[0] != b[0] {
          var i :| 0 <= i < |a| && a[i] == b[0];
          var j :| 0 <= j < |b| && b[j] == a[0];
          assert Less(a[0], b[0]) && Less(b[0], a[0]);
          LessEqAntisymmetric(a[0], b[0]);
        }
      }
      forall y
        ensures y in a[1..] <==> y in b[1..]
      {
        if y in a[1..] {
          var i :| 0 <= i < |a[1..]| && a[1..][i] == y;
          assert Less(a[0], a[i + 1]);
          assert y in b;
        }
        if y in b[1..] {
          var i :| 0 <= i < |b[1..]| && b[1..][i] == y;
          assert Less(b[0], b[i + 1]);
          assert y in a;
        }
      }
      StrictlyIncreasingUnique(a[1..], b[1..]);
      assert a == [a[0]] + a[1..];
      assert b == [b[0]] + b[1..];
    }
  }
}

=== FILE: state.dfy ===
/**
 The per-session state the dashboard keeps between reruns (Streamlit's
 `st.session_state`), gathered in one record, and its initial value.
 */
module State {
  import opened Records
  import opened Pagination

  datatype SortOrder = Asc | Desc

  /** The sort button: 'asc' becomes 'desc' and 'desc' becomes 'asc'. */
  function Toggle(o: SortOrder): (r: SortOrder)
    ensures r != o
  {
    if o == Asc then Desc else Asc
  }

  /** Toggling twice restores the order. */
  lemma ToggleInvolution(o: SortOrder)
    ensures Toggle(Toggle(o)) == o
  {
  }

  datatype Session = Session(
    // authentication
    accessToken: Option<string>,
    isAdmin: bool,
    userId: Option<UserId>,
    username: Option<string>,
    backendReachable: bool,
    // documents view
    searchQuery: string,
    userFilter: string,            // "" stands for "All Users"
    docPage: Page,
    sortDocs: SortOrder,
    lastTypingMs: int,             // `last_typing_time`, in milliseconds
    uniqueUserIds: Option<seq<string>>,
    // users view
    userPage: Page,
    sortUsers: SortOrder,
    sortedUsers: Option<seq<User>>,
    prevSortUsers: Option<SortOrder>,
    deleteArmed: map<string, bool>, // `delete_state_{id}`
    // what `st.cache_data` holds for the two fetch functions, until cleared
    documentsCache: Option<seq<Document>>,
    usersCache: Option<seq<User>>)

  /**
   A fresh session, as the defaults at the top of the script leave it: signed
   out, no search or filter, page 1 and latest first on both lists, and
   nothing cached or armed.
   */
  function Initial(): (r: Session)
    ensures !r.isAdmin && r.accessToken.None? && !r.backendReachable
    ensures r.userId.None? && r.username.None?
    ensures r.searchQuery == "" && r.userFilter == ""
    ensures r.docPage == 1 && r.userPage == 1
    ensures r.sortDocs == Desc && r.sortUsers == Desc
    ensures r.lastTypingMs == 0
    ensures r.uniqueUserIds.None? && r.sortedUsers.None? && r.prevSortUsers.None?
    ensures r.documentsCache.None? && r.usersCache.None?
    ensures forall id :: !Armed(r, id)
  {
    Session(None, false, None, None, false,
            "", "", 1, Desc, 0, None,
            1, Desc, None, None, map[],
            None, None)
  }

  const BearerPrefix: string := "Bearer "

  /**
   `get_auth_header`: the value of the Authorization header, or None when
   the token is missing or empty.
   */
  function AuthHeader(s: Session): (r: Option<string>)
    ensures r.None? <==> s.accessToken.None? || s.accessToken.value == ""
    ensures r.Some? ==> |r.value| > |BearerPrefix|
    ensures r.Some? ==> r.value[..|BearerPrefix|] == BearerPrefix
    ensures r.Some? ==> r.value[|BearerPrefix|..] == s.accessToken.value
  {
    if s.accessToken.None? || s.accessToken.value == "" then None
    else Some(BearerPrefix + s.accessToken.value)
  }

  /** Two sessions send the same header exactly when they hold the same non-empty token. */
  lemma AuthHeaderCarriesToken(s: Session, t: Session)
    requires AuthHeader(s).Some? && AuthHeader(t).Some?
    ensures AuthHeader(s) == AuthHeader(t) <==> s.accessToken == t.accessToken
  {
    if AuthHeader(s) == AuthHeader(t) {
      assert AuthHeader(s).value[|BearerPrefix|..] == AuthHeader(t).value[|BearerPrefix|..];
    }
  }

  /** Requests carry an Authorization header. */
  predicate HasAuthHeader(s: Session) {
    AuthHeader(s).Some?
  }

  /** A user's delete confirmation is armed (a missing flag reads as false). */
  predicate Armed(s: Session, userId: string) {
    userId in s.deleteArmed && s.deleteArmed[userId]
  }
}

=== FILE: text.dfy ===
/**
 String helpers the dashboard relies on: ASCII case folding (the model of
 Python's `str.lower`), substring search (Python's `in` on strings) and the
 code-point lexicographic order Python uses to compare strings.
 */
module Text {

  /** Python's `.lower()` restricted to ASCII: 'A'..'Z' become 'a'..'z'. */
  function LowerChar(c: char): char {
    if 'A' <= c <= 'Z' then (c as int + 32) as char else c
  }

  function Lower(s: string): (r: string)
    ensures |r| == |s|
    ensures forall i :: 0 <= i < |s| ==> r[i] == LowerChar(s[i])
  {
    if |s| == 0 then [] else [LowerChar(s[0])] + Lower(s[1..])
  }

  // ---------------------------------------------------------------------------
  // Substring search

  /** `sub` occurs in `s` starting at index `i`: the reference meaning of `sub in s`. */
  predicate OccursAt(s: string, sub: string, i: int) {
    0 <= i && i + |sub| <= |s| && s[i..i + |sub|] == sub
  }

  predicate IsPrefix(p: string, s: string) {
    |p| <= |s| && s[..|p|] == p
  }

  /** Python's `sub in s`, computed by trying every start position. */
  function Contains(s: string, sub: string): bool
    decreases |s|
  {
    IsPrefix(sub, s) || (|s| > 0 && Contains(s[1..], sub))
  }

  /** The search finds `sub` exactly when it occurs at some index of `s`. */
  lemma {:induction false} ContainsIffOccurs(s: string, sub: string)
    ensures Contains(s, sub) <==> exists i :: OccursAt(s, sub, i)
    decreases |s|
  {
    if IsPrefix(sub, s) {
      assert OccursAt(s, sub, 0);
    } else if |s| == 0 {
    } else {
      ContainsIffOccurs(s[1..], sub);
      if Contains(s[1..], sub) {
        var i :| OccursAt(s[1..], sub, i);
        assert s[1..][i..i + |sub|] == s[i + 1..i + 1 + |sub|];
        assert OccursAt(s, sub, i + 1);
      }
      if exists i :: OccursAt(s, sub, i) {
        var i :| OccursAt(s, sub, i);
        if i > 0 {
          assert s[1..][i - 1..i - 1 + |sub|] == s[i..i + |sub|];
          assert OccursAt(s[1..], sub, i - 1);
        }
      }
    }
  }

  /**
   A non-empty `sub` is not found when no start position that leaves room for
   it holds its first character.
   */
  lemma NotContainedWithoutFirstChar(s: string, sub: string)
    requires |sub| > 0
    requires forall i :: 0 <= i && i + |sub| <= |s| ==> s[i] != sub[0]
    ensures !Contains(s, sub)
  {
    ContainsIffOccurs(s, sub);
    forall i | 0 <= i && i + |sub| <= |s|
      ensures !OccursAt(s, sub, i)
    {
      assert s[i..i + |sub|][0] == s[i];
    }
  }

  /** The empty string occurs in every string, as in Python (`"" in s`). */
  lemma EmptyAlwaysContained(s: string)
    ensures Contains(s, "")
  {
    assert IsPrefix("", s);
  }

  // ---------------------------------------------------------------------------
  // Lexicographic order on strings (Python's `<=` on `str`, by code point)

  predicate LessEq(a: string, b: string)
    decreases |a|
  {
    |a| == 0 || (|b| > 0 && (a[0] < b[0] || (a[0] == b[0] && LessEq(a[1..], b[1..]))))
  }

  predicate Less(a: string, b: string) {
    LessEq(a, b) && a != b
  }

  lemma {:induction false} LessEqReflexive(a: string)
    ensures LessEq(a, a)
    decreases |a|
  {
    if |a| > 0 {
      LessEqReflexive(a[1..]);
    }
  }

  lemma {:induction false} LessEqAntisymmetric(a: string, b: string)
    requires LessEq(a, b) && LessEq(b, a)
    ensures a == b
    decreases |a|
  {
    if |a| > 0 {
      assert a[0] == b[0];
      LessEqAntisymmetric(a[1..], b[1..]);
      assert a == [a[0]] + a[1..];
      assert b == [b[0]] + b[1..];
    }
  }

  lemma {:induction false} LessEqTransitive(a: string, b: string, c: string)
    requires LessEq(a, b) && LessEq(b, c)
    ensures LessEq(a, c)
    decreases |a|
  {
    if |a| > 0 && a[0] == b[0] && b[0] == c[0] {
      LessEqTransitive(a[1..], b[1..], c[1..]);
    }
  }

  lemma {:induction false} LessEqTotal(a: string, b: string)
    ensures LessEq(a, b) || LessEq(b, a)
    decreases |a|
  {
    if |a| > 0 && |b| > 0 && a[0] == b[0] {
      LessEqTotal(a[1..], b[1..]);
    }
  }

  /** Strict order is the complement of the reversed non-strict order. */
  lemma LessIffNotGreaterEq(a: string, b: string)
    ensures Less(a, b) <==> !LessEq(b, a)
  {
    LessEqTotal(a, b);
    if LessEq(a, b) && LessEq(b, a) {
      LessEqAntisymmetric(a, b);
    }
    if a == b {
      LessEqReflexive(a);
    }
  }

  lemma LessTransitive(a: string, b: string, c: string)
    requires Less(a, b) && Less(b, c)
    ensures Less(a, c)
  {
    LessEqTransitive(a, b, c);
    if a == c {
      LessEqAntisymmetric(a, b);
    }
  }

  /** Of two strings exactly one holds: they are equal, the first is smaller, or the second is. */
  lemma LessTrichotomy(a: string, b: string)
    ensures a == b || Less(a, b) || Less(b, a)
    ensures !(Less(a, b) && Less(b, a))
    ensures a == b ==> !Less(a, b) && !Less(b, a)
  {
    LessEqTotal(a, b);
    LessIffNotGreaterEq(a, b);
  }
}

=== FILE: users.dfy ===
/**
 The Users page: the sort button, the sorted-list cache, pagination without
 a page reset, and the two-step confirmation that guards deleting a user.
 */
module Users {
  import opened Records
  import opened Sorting
  import opened Pagination
  import opened State

  /**
   The users fetch behind `st.cache_data`, as `fetch_documents` does it: a
   cached list is served as is, otherwise `fetched` is returned and cached.
   */
  function FetchUsers(s: Session, fetched: seq<User>): (r: (seq<User>, Session))
    ensures r.1 == s.(usersCache := Some(r.0))
    ensures s.usersCache.Some? ==> r.0 == s.usersCache.value
    ensures s.usersCache.None? ==> r.0 == fetched
  {
    match s.usersCache
    case Some(users) => (users, s)
    case None => (fetched, s.(usersCache := Some(fetched)))
  }

  /** `sorted(users, key=created_at, reverse=(order == 'desc'))` */
  function SortUsers(users: seq<User>, order: SortOrder): (r: seq<User>)
    ensures multiset(r) == multiset(users)
    ensures Ordered(r, CreatedAt, order == Desc)
    ensures Stable(r, users, CreatedAt)
  {
    SortBy(users, CreatedAt, order == Desc)
  }

  /**
   The sorted list is cached in the session and re-sorted only when there is
   none yet or the order differs from the one it was sorted in; otherwise
   the cached list is reused, even if the fetched list has changed.
   */
  function RefreshSortedUsers(s: Session, users: seq<User>): (r: Session)
    ensures r.sortedUsers.Some? && r.prevSortUsers == Some(s.sortUsers)
    ensures s.sortedUsers.None? || s.prevSortUsers != Some(s.sortUsers) ==>
      r == s.(sortedUsers := Some(SortUsers(users, s.sortUsers)), prevSortUsers := Some(s.sortUsers))
    ensures s.sortedUsers.Some? && s.prevSortUsers == Some(s.sortUsers) ==> r == s
  {
    if s.sortedUsers.None? || s.prevSortUsers != Some(s.sortUsers) then
      s.(sortedUsers := Some(SortUsers(users, s.sortUsers)), prevSortUsers := Some(s.sortUsers))
    else
      s
  }

  /** Whatever the cache held, toggling the order re-sorts the current fetch. */
  lemma ToggleResorts(s: Session, users: seq<User>)
    requires s.prevSortUsers == Some(s.sortUsers)
    ensures var t := RefreshSortedUsers(s.(sortUsers := Toggle(s.sortUsers)), users);
            t.sortedUsers == Some(SortUsers(users, Toggle(s.sortUsers)))
  {
  }

  datatype UsersView =
    | NoUsers                           // "No users found."
    | UsersPage(page: Page, totalPages: Page, visible: seq<User>)

  /**
   One render of the list. Unlike the documents view, the session's page is
   used as is: a page past the end shows an empty table.
   */
  function Render(users: seq<User>, s: Session): (r: (UsersView, Session))
    ensures r.0.NoUsers? <==> |users| == 0
    ensures |users| == 0 ==> r.1 == s
    ensures |users| > 0 ==> r.1 == RefreshSortedUsers(s, users)
    ensures r.0.UsersPage? ==>
      && r.1.sortedUsers.Some?
      && r.0.page == s.userPage
      && r.0.totalPages == TotalPages(|r.1.sortedUsers.value|)
      && r.0.visible == PageItems(r.1.sortedUsers.value, r.0.page)
      && |r.0.visible| <= PageSize
      && (r.0.page <= r.0.totalPages && |r.1.sortedUsers.value| > 0 ==> |r.0.visible| > 0)
      && (r.0.page > r.0.totalPages ==> r.0.visible == [])
  {
    if |users| == 0 then
      (NoUsers, s)
    else
      var s1 := RefreshSortedUsers(s, users);
      var list := s1.sortedUsers.value;
      var total := TotalPages(|list|);
      (UsersPage(s.userPage, total, PageItems(list, s.userPage)), s1)
  }

  /**
   A user page left over from a longer list shows nothing: with 17 users the
   list had three pages; after a re-sort of a 9-user fetch it has two, and
   page 3 is empty ("Page 3/2").
   */
  lemma StalePageRendersEmpty(users: seq<User>, s: Session)
    requires |users| == 9 && s.userPage == 3
    requires s.sortedUsers.None?
    ensures Render(users, s).0 == UsersPage(3, 2, [])
  {
    var list := SortUsers(users, s.sortUsers);
    assert |list| == |multiset(list)| == |multiset(users)| == 9;
    assert TotalPages(9) == 2;
  }

  /** The sort button flips the order and keeps the page. */
  function ToggleUserSort(s: Session): (r: Session)
    ensures r.sortUsers != s.sortUsers
    ensures r == s.(sortUsers := r.sortUsers)
  {
    s.(sortUsers := Toggle(s.sortUsers))
  }

  lemma ToggleUserSortTwice(s: Session)
    ensures ToggleUserSort(ToggleUserSort(s)) == s
  {
    ToggleInvolution(s.sortUsers);
  }

  /** "◀ Prev" on the users list. */
  function UserPrev(s: Session): (r: Session)
    ensures r == s.(userPage := r.userPage)
    ensures s.userPage == 1 ==> r == s
    ensures s.userPage > 1 ==> r.userPage == s.userPage - 1
  {
    s.(userPage := PrevPage(s.userPage))
  }

  /** "Next ▶" on the users list, given the page count of this render. */
  function UserNext(s: Session, total: Page): (r: Session)
    ensures r == s.(userPage := r.userPage)
    ensures s.userPage >= total ==> r == s
    ensures s.userPage < total ==> r.userPage == s.userPage + 1 <= total
  {
    s.(userPage := NextPage(s.userPage, total))
  }

  // ---------------------------------------------------------------------------
  // Deleting a user: "Delete User", then "Confirm Delete" or "Cancel"

  /** The danger zone, and with it every delete button, is shown only for non-admins. */
  predicate Deletable(u: User) {
    !u.isAdmin
  }

  /** "Delete User" arms the confirmation for that user. */
  function PressDelete(s: Session, u: User): (r: Session)
    ensures Deletable(u) ==> Armed(r, u.id)
    ensures !Deletable(u) ==> r == s
    ensures forall id :: id != u.id ==> (Armed(r, id) <==> Armed(s, id))
    ensures r == s.(deleteArmed := r.deleteArmed)
  {
    if Deletable(u) then s.(deleteArmed := s.deleteArmed[u.id := true]) else s
  }

  /** "Cancel" disarms the confirmation without a request. */
  function CancelDelete(s: Session, u: User): (r: Session)
    ensures Deletable(u) ==> !Armed(r, u.id)
    ensures !Deletable(u) ==> r == s
    ensures forall id :: id != u.id ==> (Armed(r, id) <==> Armed(s, id))
    ensures r == s.(deleteArmed := r.deleteArmed)
  {
    if Deletable(u) then s.(deleteArmed := s.deleteArmed[u.id := false]) else s
  }

  /** The session after "Confirm Delete", and whether the DELETE request went out. */
  datatype ConfirmResult = ConfirmResult(session: Session, requested: bool)

  /**
   "Confirm Delete" is only on screen while the user is armed, so only then
   is the request sent. A 200 reply disarms, goes back to page 1 and drops
   every cached collection; any other outcome changes nothing.
   */
  function ConfirmDelete(s: Session, u: User, reply: Reply): (r: ConfirmResult)
    ensures r.requested <==> Deletable(u) && Armed(s, u.id)
    ensures !r.requested || !IsOk(reply) ==> r.session == s
    ensures r.requested && IsOk(reply) ==>
      && !Armed(r.session, u.id)
      && r.session.userPage == 1
      && r.session.documentsCache.None? && r.session.usersCache.None?
      && r.session.uniqueUserIds.None? && r.session.sortedUsers.None?
      && (forall id :: id != u.id ==> (Armed(r.session, id) <==> Armed(s, id)))
      && r.session == s.(deleteArmed := r.session.deleteArmed, userPage := 1,
                         documentsCache := None, usersCache := None,
                         uniqueUserIds := None, sortedUsers := None)
  {
    if !(Deletable(u) && Armed(s, u.id)) then
      ConfirmResult(s, false)
    else if IsOk(reply) then
      ConfirmResult(s.(deleteArmed := s.deleteArmed[u.id := false], userPage := 1,
                       documentsCache := None, usersCache := None,
                       uniqueUserIds := None, sortedUsers := None), true)
    else
      ConfirmResult(s, true)
  }

  /** After a successful delete both lists are fetched from the backend again. */
  lemma ConfirmRefetches(s: Session, u: User, reply: Reply, users: seq<User>)
    requires Deletable(u) && Armed(s, u.id) && IsOk(reply)
    ensures var s1 := ConfirmDelete(s, u, reply).session;
            FetchUsers(s1, users).0 == users && s1.documentsCache.None?
  {
  }

  /** Press, then confirm with success: one request, and the user is disarmed again. */
  lemma PressThenConfirm(s: Session, u: User, reply: Reply)
    requires Deletable(u) && IsOk(reply)
    ensures var r := ConfirmDelete(PressDelete(s, u), u, reply);
            r.requested && !Armed(r.session, u.id) && r.session.userPage == 1
  {
  }

  /** Press, then cancel: the confirm step sends nothing afterwards. */
  lemma CancelBlocksRequest(s: Session, u: User, reply: Reply)
    ensures !ConfirmDelete(CancelDelete(PressDelete(s, u), u), u, reply).requested
  {
  }

  /** A failed request keeps the user armed, so the admin can retry or cancel. */
  lemma FailedConfirmStaysArmed(s: Session, u: User, reply: Reply)
    requires Deletable(u) && !IsOk(reply)
    ensures var r := ConfirmDelete(PressDelete(s, u), u, reply);
            r.requested && Armed(r.session, u.id) && r.session.userPage == s.userPage
  {
  }
}
